=== FILE: README.md ===
# build_opi in Dafny

A model of `build_opi.py`, the generator of CS-Studio BOY operator screens
(`.opi` files) from a plain list of EPICS process-variable (PV) names. The
script trims each line of the list and applies an optional `--substitute`
rewrite. It then turns literal macro values back into `$(NAME)` tokens and
drops the PVs matched by `--ignore` patterns. Next it pairs each readback
with its setpoint through the `--group` rewrite. It classifies every single
PV and every pair by the EPICS record types it reads over Channel Access.
Finally it stacks one template widget per group down a display under an
optional title, sorted by a chosen key.

The modules follow the stages of the script:

- `Results`: `Option`, `Result` and the error kinds the script can raise.
- `Seqs`: the subsequence order ("keeps the relative order") and Python's
  `list.remove`.
- `Strings`: `strip`, `replace`, `split`, `join`, and Python's string order.
- `Macros`: `sub_macros`, `expand_macros` and `parse_macro_string`.
- `Preprocess`: the line rewrite and the ignore loop of `main`.
- `Grouper`: the greedy pairing loop of `main`.
- `Classify`: `get_pv_info`, the `rtype_groups` table and `display_from_pv_list`.
- `Sorting`: the sort-key choice and the stable sort of `make_display`.
- `Layout`: `add_widget` and `make_display` with unit scale factors.
- `BuildOpi`: `main` and the command line, as one pure pipeline.

The regex engine, Channel Access and the template display are not modelled.
They enter as parameters:

- `matches(pattern, pv)` stands for `re.search`.
- `pairOf(pv)` is the `--group` `re.sub`.
- `subst(pv)` is the `--substitute` `re.sub`.
- `caget(name)` is `epics.caget`, returning `None` when the read fails.
- A `Catalog` maps each template widget name to its height and the
  `%(key)s` placeholders its text holds.

The script is a Python 2 program, and the model follows Python 2. The first
unknown record type therefore makes `get_pv_info` return `None`, and that
group is dropped.

The model keeps these behaviours of the code, some of them surprising:

- The shared keyword fields of `make_display` override each record's own
  fields, because `pv_info.update(info)` runs last.
- An explicit `rtype` is used only when it has exactly two entries.
  Otherwise the types are read over Channel Access, which needs macros.
- An unknown record type drops the group; it is not an error.
- An explicitly given description is replaced by the readback PV name.
- `sort in pvs[0]` fails on an empty group list unless the sort is `pv` or
  `type`.

## Model

| member | source | states |
|---|---|---|
| Macros.SubMacros | build_opi.py:168-171 | With an empty macro table the text comes back unchanged; with one macro it is `text.replace(value, '$(NAME)')` |
| Macros.SubMacrosAppend | build_opi.py:169-170 | The loop over the table is a fold: a table split in two rewrites with the first part, then with the second |
| Macros.ExpandMacros | build_opi.py:173-176 | An empty table, or a text without `$`, is left unchanged; with one macro it is that macro's `re.sub` |
| Macros.ExpandMacrosAppend | build_opi.py:174-175 | The loop over the table is a fold: a table split in two expands with the first part, then with the second |
| Macros.ExpandAfter | build_opi.py:175 | After a prefix free of `$`, a token of any bracket form the pattern accepts (`$(NAME)`, `${NAME}`, `$(NAME}`, `${NAME)`) becomes the value, the prefix is kept, and the scan resumes after the token |
| Macros.TokenForms | build_opi.py:175 | Each of the four strings `$`, `(` or `{`, the name, `)` or `}` is a token of the name, three characters longer than it |
| Macros.BracketFormsExpand | build_opi.py:175 | `${AX}:PV` and the mixed form `$(AX}:PV` both expand to `1:PV` with `AX=1` |
| Macros.ExpandOne | build_opi.py:175 | One macro's `re.sub` leaves a text holding no token of that macro (`$`, `(` or `{`, the name, `)` or `}`) unchanged, and a text holding such a token gives a result containing the value |
| Macros.TokenExpands | build_opi.py:175 | A token of the name in any of the four bracket forms, in front, expands to the value followed by the expansion of the rest |
| Macros.ExpandUndoesReplace | build_opi.py:168-176 | Expanding a macro's tokens undoes replacing its non-empty value by its token, in a text without `$` |
| Macros.MacroRoundTrip | build_opi.py:168-176 | `expand_macros(sub_macros(pv, m), m) == pv` for one macro with a non-empty value and a PV name without `$` |
| Macros.DocstringExample | build_opi.py:26-32 | With `DEV=ANC300:` then `AX=1`, the macro step of the module docstring's example: `sub_macros` turns `ANC300:AX1:PV_IN` into `$(DEV)AX$(AX):PV_IN`, and `expand_macros` turns it back |
| Macros.SetMacro | build_opi.py:302 | `macros[var] = value` binds the key to the new value, keeps every other key's value, and keeps keys distinct |
| Macros.ParseEntries | build_opi.py:300-302 | The entry loop succeeds exactly when every entry has one `=`; a failure names an entry without exactly one `=`; keys stay distinct |
| Macros.ParseEntriesLookup | build_opi.py:300-302 | After the loop every key holds the value of its last entry, or its earlier value when no entry binds it |
| Macros.ParseMacroString | build_opi.py:298-303 | Success exactly when every comma-separated entry has one `=`; a failure names such an entry; the table has distinct keys and each key holds its last entry's value |
| Macros.EmptyMacroStringFails | build_opi.py:298-301 | The empty macro string fails on its single empty entry |
| Strings.Strip | build_opi.py:267 | `line.strip()` is the slice between the leading and trailing whitespace runs and is empty or starts and ends with non-whitespace |
| Strings.Split | build_opi.py:300-301 | `split` on one character gives one more piece than separators, no piece holds the separator, and joining the pieces gives the input back |
| Strings.Replace | build_opi.py:170 | `text.replace(to, token)` leaves a text without `to` unchanged, and replacing a value by itself changes nothing; when `to` occurs, the token occurs in the result; an empty value inserts one token per position, `len(text) + 1` in all |
| Strings.ReplaceFirst | build_opi.py:170 | The first occurrence of the value is replaced by the token, the text before it is kept, and the scan resumes after it |
| Strings.InsertEverywhereSnoc | build_opi.py:170 | An empty value matches before every character and at the end: one more character adds that character and one more token |
| Strings.LexLeTotal | build_opi.py:160 | Any two keys compare one way or the other under Python's string order |
| Strings.LexLeTrans | build_opi.py:160 | Python's string order is transitive |
| Strings.LexLeAntisym | build_opi.py:160 | Keys that compare both ways are equal |
| Seqs.RemoveFirst | build_opi.py:275 | `list.remove(x)` takes out exactly one copy of `x` |
| Seqs.RemoveFirstAt | build_opi.py:275 | The copy removed is the first occurrence |
| Seqs.RemoveFirstSubseq | build_opi.py:287-288 | What `list.remove` leaves keeps its relative order |
| Preprocess.SurvivorsSpec | build_opi.py:271-276 | The reference filter: no survivor matches a pattern, every copy of each unmatched PV survives, and survivors keep their order |
| Preprocess.SurvivorsCompose | build_opi.py:271-276 | Filtering by the first pattern and then by the rest is filtering by all patterns |
| Preprocess.DropMatchStep | build_opi.py:273-276 | Removing a matched PV during the walk removes the copy being visited and leaves the reference filter's result unchanged |
| Preprocess.DropMatches | build_opi.py:272-276 | The walk over a snapshot that removes each matched PV leaves exactly the PVs the pattern does not match |
| Preprocess.IgnorePattern | build_opi.py:272-276 | One ignore pattern's pass equals the reference filter for that pattern |
| Preprocess.Ignore | build_opi.py:271-276 | The whole ignore loop equals filtering by all patterns at once |
| Preprocess.PrepareList | build_opi.py:267-276 | No PV left matches an ignore pattern; each unmatched rewritten line survives with all its copies; the survivors keep the order of the list |
| Grouper.GroupLoopSound | build_opi.py:281-289 | The loop keeps its invariant: pairs are valid, the PVs are conserved as a multiset, both lists keep input order, and no visited PV's partner is stranded |
| Grouper.GroupLoop | build_opi.py:281-289 | The loop only appends to the pairs found so far; when it raises, the PV it fails to remove is one still to visit whose partner differs from it |
| Grouper.GroupPvs | build_opi.py:278-289 | Every pair is `(a, f(a))` with `f(a) != a`; singles plus paired PVs are the input as a multiset; singles and first PVs keep input order; no single's partner is among the singles; on a list without duplicates the first match wins: a PV left single, or taken as the partner of a later PV, whose own partner is in the list lost that partner to a pair that starts earlier (so a pair of mutual partners starts at the one listed first); a failure is the `list.remove` of a listed PV whose partner differs from it |
| Grouper.GroupLoopGreedy | build_opi.py:281-289 | On a list without duplicates, every pair starts at a visited PV, and a visited PV still listed, or taken as the partner of a later PV, with its partner in the list lost that partner to such a pair |
| Grouper.MutualPairExample | build_opi.py:281-289 | When `a` and `b` are each other's partner, the pair is `(a, b)`: the earlier `a` opens it and `b` finds its partner gone |
| Grouper.SwappedPairRejected | build_opi.py:281-289 | The pair `(b, a)` for the same input breaks the first-match rule |
| Grouper.FirstMatchExample | build_opi.py:281-289 | When `a` and `b` both have partner `c`, the earlier `a` takes it and `b` stays single |
| Grouper.NoPairsLeft | build_opi.py:281-289 | When no PV to visit has a distinct partner listed, the loop pairs nothing |
| Grouper.GroupingIdempotent | build_opi.py:278-289 | Grouping the singles of a grouping again makes no pair |
| Grouper.GroupingSucceeds | build_opi.py:281-289 | Without chained partners the loop never raises |
| Grouper.ChainedPartnerFails | build_opi.py:286-288 | For the chain `a -> b -> c`, `others.remove(b)` raises because `b` was already paired with `a` |
| Classify.RecordGroup | build_opi.py:47-64 | The table: an unreadable type is unknown; only `bi`/`bo` are binary, only `mbbi`/`mbbo` are menus, and only `ao`, `bo`, `stringout`, `longout`, `mbbo` are setpoints |
| Classify.RecordTypes | build_opi.py:187-188 | One `.RTYP` read per PV, in order: entry `k` is the read of PV `k` with its macros expanded, followed by `.RTYP` |
| Classify.TypesUsed | build_opi.py:183-188 | Two explicit types are used as given; otherwise there is one `.RTYP` read per PV, of the PV with its macros expanded |
| Classify.Kinds | build_opi.py:190-194 | The table lookup succeeds exactly when every type is in the table, and then gives each type's entry in order |
| Classify.Zip | build_opi.py:203 | `zip` stops at the shorter list and pairs equal positions |
| Classify.LastIndex | build_opi.py:203-209 | The last zipped position of a direction, or none, since the loop overwrites at every match |
| Classify.GetPvInfo | build_opi.py:178-239 | Fails with the record-type error exactly when neither two explicit types nor macros are given; an unknown type gives `None`; once the types are known the answer is the one `Answers` fixes: the pairing error for two types of one direction, the missing-PV error when no type gives a PV, and otherwise the record whose readback and setpoint are the last PVs of each direction, whose template family is the last PV's, and whose description is the readback or the `.DESC` read |
| Classify.ReadSingle | build_opi.py:178-239 | One named PV read over Channel Access gives the record with that PV as readback or setpoint by its type's direction, the read-only or write-only template of its family, and its `.DESC` as description |
| Classify.DescribeSingle | build_opi.py:196-236 | Once its kind is known, one named PV gives the read-only or write-only record of that PV, with the template of its family |
| Classify.ReadPair | build_opi.py:178-239 | Two named PVs read over Channel Access raise the pairing error when their types share a direction, and otherwise give the `rw` record with readback and setpoint by direction and the second PV's family |
| Classify.Describe | build_opi.py:196-236 | Once the types are known: the pairing error for two of one direction, the missing-PV error when no PV has a direction, else the record built from the last PV of each direction and the last PV's family |
| Classify.Description | build_opi.py:223-229 | An explicit description, or empty macros, gives the readback name; otherwise the `.DESC` of the description PV, or empty when the read fails |
| Classify.LastPvSpec | build_opi.py:203-209 | The PV the loop keeps for a direction is the last zipped PV of that direction, or empty when there is none |
| Classify.PairOfOppositeDirections | build_opi.py:196-236 | A readback and a setpoint in either order, with or without macros, give access `rw`, the readback as `desc_pv`, and the second PV's family in the template |
| Classify.DescribePair | build_opi.py:201-236 | Two named PVs of opposite directions give the read-write record with the readback as description PV |
| Classify.TemplateOfLastPv | build_opi.py:203-231 | A binary readback with a text setpoint (`bi` then `ao`) is drawn as `text_rw_group`, with or without macros |
| Classify.UnknownTypeDropped | build_opi.py:190-194 | A type missing from the table, or unreadable, makes `get_pv_info` return `None` without an error |
| Classify.SameDirectionRejected | build_opi.py:196-199 | Two known types of the same direction raise the pairing error, even next to a single PV |
| Classify.Entries | build_opi.py:244-245 | The groups classified are each single on its own, then each pair, in order |
| Classify.Collect | build_opi.py:244-248 | Collecting succeeds exactly when every group's classification does; otherwise its error is the first failing group's; the records kept are exactly the groups' records, in group order, one per group at most |
| Classify.SomesMembers | build_opi.py:247-248 | A record is kept exactly when some group gave it |
| Classify.CollectedFrom | build_opi.py:247-248 | A record is collected exactly when it is the result of one group |
| Classify.ClassifyAll | build_opi.py:244-248 | Classifying the groups succeeds exactly when every group does, raises only the three `ValueError`s, and keeps exactly the records some group gave |
| Classify.ClassifiedFrom | build_opi.py:244-248 | Every classified record is well formed for one of the groups |
| Classify.NoMacrosFails | build_opi.py:183-185 | Without macros any non-empty group list fails with the record-type error |
| Sorting.KeyNamed | build_opi.py:155 | `sort in pvs[0]` holds exactly for the five record keys |
| Sorting.SortKeyFor | build_opi.py:150-157 | `pv` sorts by `desc_pv` and `type` by `template`; another name sorts by that key when it is a record key and leaves the order otherwise; an empty list fails unless the sort is `pv` or `type` |
| Sorting.Insert | build_opi.py:159-160 | Inserting adds exactly one record |
| Sorting.SortBy | build_opi.py:159-160 | The sort is a permutation |
| Sorting.InsertSorted | build_opi.py:159-160 | Inserting into a sorted list keeps it sorted |
| Sorting.SortBySorted | build_opi.py:159-160 | The sorted records ascend by the key |
| Sorting.InsertFilter | build_opi.py:159-160 | A record inserted into a sorted list goes after every record with the same key |
| Sorting.SortByStable | build_opi.py:159-160 | Records with equal keys keep their relative order |
| Sorting.SortBySpec | build_opi.py:159-160 | `list.sort(key=...)` gives a permutation, ascending by key, stable among equal keys |
| Layout.AddWidget | build_opi.py:99-136 | An unknown template returns `y` unchanged; a missing placeholder field raises; otherwise the copy goes at `(x, y)` and the result is `y + spacing + height` |
| Layout.MergedFields | build_opi.py:161-163 | After `pv_info.update(info)` the shared fields win and every other record key keeps the record's value |
| Layout.PlaceRow | build_opi.py:161-164 | A record fails to place exactly when its template exists but lacks a field, with that template's error |
| Layout.PlaceRowsSpec | build_opi.py:161-164 | The record widgets are stacked from the cursor, each is a filled template, and their fields are, in order, the merged records whose template exists |
| Layout.PlaceRowsFails | build_opi.py:161-164 | The loop fails exactly when some record cannot be filled, and then reports the first such record's template |
| Layout.PlaceRows | build_opi.py:161-164 | The loop raises only the missing-field `KeyError`, and places one widget per record whose template exists |
| Layout.PlaceableKeeps | build_opi.py:161-164 | A record whose template exists is never skipped by the loop |
| Layout.RowShown | build_opi.py:161-164 | Every record whose template exists gets a widget showing its fields |
| Layout.TitleStep | build_opi.py:140-141 | Without a title or without the title template nothing is placed and the cursor stays; the step raises exactly when the title template needs a field that neither the shared fields nor the title give; otherwise the title widget goes at `(x, y)` with the shared fields and the title, and the cursor moves below it by spacing plus height |
| Layout.MakeDisplay | build_opi.py:138-166 | `make_display` raises only the `IndexError` of `pvs[0]`, which an empty list needs, or a missing-field `KeyError`; it adds at most one widget per record besides the title |
| Layout.MakeDisplayStacked | build_opi.py:138-166 | The whole display is stacked from the start position and every widget is a filled template at column `x` |
| Layout.TitleFirst | build_opi.py:140-141 | A non-empty title with an existing template is the first widget, at the start position |
| Layout.RowsAscending | build_opi.py:150-164 | Sorted by a key the shared fields leave alone, the record widgets ascend by that key |
| Layout.DisplayedRecords | build_opi.py:159-164 | Every widget below the title shows some record merged with the shared fields, and there are no more record widgets than records |
| Layout.DisplayedAll | build_opi.py:150-164 | Conversely, every record whose merged template exists is shown by some widget below the title, whatever the sort |
| Layout.StackedDescends | build_opi.py:136 | Stacked widgets of non-negative heights go strictly down and stay between the top and the final cursor |
| Layout.CursorMonotone | build_opi.py:138-166 | With non-negative heights the final cursor is not above the start, and the widgets go strictly down |
| Layout.EmptyDisplayFails | build_opi.py:150-156 | An empty record list fails unless sorted by `pv` or `type` |
| BuildOpi.Generate | build_opi.py:254-295 | `main` raises only a failed `list.remove`, the three `ValueError`s, the empty-list `IndexError` or a missing-field `KeyError`; a display means grouping and every group's classification succeeded |
| BuildOpi.Run | build_opi.py:333-342 | The command line stops with the malformed-entry error exactly when the macro string has an entry without one `=`, and otherwise raises only what `main` raises |
| BuildOpi.EntriesFromList | build_opi.py:278-295 | Every group handed to classification is made of PVs from the preprocessed list |
| BuildOpi.NoMacrosNoDisplay | build_opi.py:254-295 | Without macros a non-empty list fails with the record-type error, unless grouping failed first |
| BuildOpi.SuccessNeedsMacros | build_opi.py:254-303 | A successful run over a non-empty list had at least one macro in its macro string |
| BuildOpi.EmptyListNoDisplay | build_opi.py:241-252 | An empty list makes no display unless it is sorted by `pv` or `type` |
| BuildOpi.GeneratedStacked | build_opi.py:254-295 | A produced display is stacked from the top-left corner and every widget is a filled template of the left column |
| BuildOpi.DisplayedPvsListed | build_opi.py:241-295 | Every record widget names as readback and setpoint only PVs of the preprocessed list |
| BuildOpi.GroupsDisplayed | build_opi.py:241-295 | Every group classified into a record whose template exists is shown by a widget below the title |

## Left out

- XML handling is not modelled: `read_template`, `find_all_subwidgets`, `tostring` and `fromstring`. The template display is the `Catalog` parameter.
- Writing the macros into the display's `<macros>` element is not modelled; it only adds XML.
- Float scaling is not modelled: `scale_attributes`, the `x_scale`/`y_scale` factors applied twice to positions, and the `int` truncation. The model takes unit scales, which `main` uses unless `-x`/`-y` are given, and integer positions.
- Layout.AddWidget: Python's `%` formatting is modelled only as a `KeyError` for a placeholder with no field. Formatting the values into the text is left out; the widget records its fields instead.
- The regex engine is not modelled. `re.search`, the `--group` and `--substitute` rewrites are parameters, and `expand_macros` is modelled as literal token replacement.
- Macros.ExpandMacros: macro names holding regex metacharacters, and values holding backslashes, are treated literally, which `re.sub` does not do.
- Macros.SubMacros: the round trip is proved for one macro. With several macros, one value's token can be rewritten by a later macro, so no general round trip holds.
- Channel Access is not modelled. `caget` is a parameter, and the `timeout=0.1` of the description read is part of it.
- Argument parsing, file reading and writing, and every `print` are left out.
- A missing `--macros` option is not modelled: `parse_macro_string(None)` raises `AttributeError`. The model's `Run` takes a string.
- A missing `--group` option is not modelled: `pattern, replace = None` raises `TypeError`. The model always takes a `pairOf` function.
- A missing `--ignore` option is not modelled: `args.ignore` is then `None`, and `for pattern in ignore` raises `TypeError`. The model always takes a list of patterns.
- The `isinstance(pv1, tuple)` test of the grouping loop is left out. The list holds only strings, so it never holds.
- Keyword collisions in `**info` are left out. A record or shared field named `x`, `y`, `parent` or `widget_name` raises `TypeError`, and no record key is one of these.
- Layout.MakeDisplay: keeps `spacing` 5 and unit scales even when a shared field is named `spacing`, `x_scale` or `y_scale`. In the source such a field sets that keyword parameter of `add_widget` without an error; the model instead keeps it among the widget's fields.
- BuildOpi.Run: keeps the macros in the order of their first entry in the macro string. Python 2 iterates a `dict` in hash order, and `sub_macros` depends on that order: for `DEV=ANC1,AX=1` the PV `ANC1:AX1:X` becomes `$(DEV):AX$(AX):X` when `DEV` is replaced first but `ANC$(AX):AX$(AX):X` when `AX` is. `Generate` accepts a table in any order, so each hash order is one of its inputs.
- Python 3 behaviour is left out. Under Python 3 the unknown-type branch would raise `NameError` on `rt`; the script targets Python 2.
- Python 2 compares byte strings; the model compares characters by code point.
- `sort=None`, the default when `--sort` is not given, behaves as a name that is no record key. The model passes it as the empty string.
- The `calcout` entry of `rtype_groups` is a readback, as written.

=== FILE: build_opi.dfy ===
/** The script's `main`: the PV list is read, rewritten and filtered,
    grouped into readback/setpoint pairs, classified group by group, and
    laid out as one display. The regular expressions, channel access and
    the template display are oracles given as parameters. */
module BuildOpi {
  import opened Results
  import opened Strings
  import opened Macros
  import opened Preprocess
  import opened Grouper
  import opened Classify
  import opened Sorting
  import opened Layout

  /** The exceptions `main` can raise once the macros are parsed: a PV
      removed twice while grouping, the three classification errors, the
      empty list at the sort-key test, and a missing template field. */
  predicate MainError(e: Error)
  {
    e.NotInList? || e.MissingPlaceholder? || e in {MacrosRequired, InvalidPairing, NoPv, EmptyPvList}
  }

  /** `main(pv_list, macros=..., group_pattern=..., ignore=..., title=...,
      substitute=..., sort=...)` with unit scale factors: the lines of
      the PV list go in, the display that would be written comes out. A
      display is produced only when grouping and every group's
      classification succeed. */
  function Generate(lines: seq<string>, subst: Pv -> Pv, macros: MacroTable, ignore: seq<string>,
                    matches: Matcher, pairOf: PairFn, caget: Caget, catalog: Catalog,
                    title: string, sort: string): (r: Result<Display>)
    ensures r.Failure? ==> MainError(r.error)
    ensures r.Success? ==>
              var g := GroupPvs(PrepareList(lines, subst, macros, ignore, matches), pairOf);
              && g.Success?
              && forall k :: 0 <= k < |Entries(g.value.singles, g.value.pairs)| ==>
                   ClassifyEntry(macros, Entries(g.value.singles, g.value.pairs)[k], caget).Success?
  {
    var pvs := PrepareList(lines, subst, macros, ignore, matches);
    var g :- GroupPvs(pvs, pairOf);
    var rows :- ClassifyAll(macros, Entries(g.singles, g.pairs), caget);
    MakeDisplay(catalog, rows, 0, 0, title, sort, map[])
  }

  /** The command line: the `--macros` string is parsed first, then `main`
      runs with the table it gives. A malformed macro entry stops the run
      before the list is read. */
  function Run(macroString: string, lines: seq<string>, subst: Pv -> Pv, ignore: seq<string>,
               matches: Matcher, pairOf: PairFn, caget: Caget, catalog: Catalog,
               title: string, sort: string): (r: Result<Display>)
    ensures r.Success? ==> forall e :: e in Split(macroString, ',') ==> OneEquals(e)
    ensures (exists e :: e in Split(macroString, ',') && !OneEquals(e)) ==> r.Failure? && r.error.BadMacroEntry?
    ensures r.Failure? ==> r.error.BadMacroEntry? || MainError(r.error)
  {
    var macros :- ParseMacroString(macroString);
    Generate(lines, subst, macros, ignore, matches, pairOf, caget, catalog, title, sort)
  }

  /** Every group handed to classification is made of listed PVs. */
  lemma EntriesFromList(pvs: seq<Pv>, g: Grouping, pairOf: PairFn)
    requires GroupingOk(pvs, g, pairOf)
    ensures var entries := Entries(g.singles, g.pairs);
            forall k, x :: 0 <= k < |entries| && x in entries[k] ==> x in pvs
  {
    var entries := Entries(g.singles, g.pairs);
    FlattenMembers(g.pairs);
    forall k, x | 0 <= k < |entries| && x in entries[k]
      ensures x in pvs
    {
      if k < |g.singles| {
        assert x == g.singles[k];
        assert x in multiset(g.singles);
      } else {
        var pair := g.pairs[k - |g.singles|];
        assert x == pair.0 || x == pair.1;
        assert x in multiset(Flatten(g.pairs));
      }
      assert x in multiset(pvs);
    }
  }

  /** There are exactly as many groups as singles plus pairs, and a
      non-empty list yields at least one. */
  lemma SomeGroups(pvs: seq<Pv>, g: Grouping, pairOf: PairFn)
    requires GroupingOk(pvs, g, pairOf) && |pvs| > 0
    ensures |Entries(g.singles, g.pairs)| > 0
  {
    assert |multiset(pvs)| > 0;
    if |g.pairs| == 0 {
      assert Flatten(g.pairs) == [];
      assert |multiset(g.singles)| == |multiset(pvs)|;
    }
  }

  /** Without macros no display is produced from a non-empty list: the
      record-type lookup needs them, so the run stops with that error
      unless grouping has already failed. */
  lemma NoMacrosNoDisplay(lines: seq<string>, subst: Pv -> Pv, ignore: seq<string>, matches: Matcher,
                          pairOf: PairFn, caget: Caget, catalog: Catalog, title: string, sort: string)
    requires |PrepareList(lines, subst, [], ignore, matches)| > 0
    ensures var g := GroupPvs(PrepareList(lines, subst, [], ignore, matches), pairOf);
            Generate(lines, subst, [], ignore, matches, pairOf, caget, catalog, title, sort)
              == if g.Success? then Failure(MacrosRequired) else Failure(g.error)
  {
    var pvs := PrepareList(lines, subst, [], ignore, matches);
    var g := GroupPvs(pvs, pairOf);
    if g.Success? {
      SomeGroups(pvs, g.value, pairOf);
      NoMacrosFails(Entries(g.value.singles, g.value.pairs), caget);
    }
  }

  /** A run whose list survives preprocessing only succeeds when the macro
      string gave at least one macro. */
  lemma SuccessNeedsMacros(macroString: string, lines: seq<string>, subst: Pv -> Pv, ignore: seq<string>,
                           matches: Matcher, pairOf: PairFn, caget: Caget, catalog: Catalog,
                           title: string, sort: string)
    requires Run(macroString, lines, subst, ignore, matches, pairOf, caget, catalog, title, sort).Success?
    requires ParseMacroString(macroString).Success?
    requires |PrepareList(lines, subst, ParseMacroString(macroString).value, ignore, matches)| > 0
    ensures |ParseMacroString(macroString).value| > 0
  {
    if |ParseMacroString(macroString).value| == 0 {
      assert ParseMacroString(macroString).value == [];
      NoMacrosNoDisplay(lines, subst, ignore, matches, pairOf, caget, catalog, title, sort);
    }
  }

  /** An empty list makes no display unless it is sorted by `pv` or
      `type`. */
  lemma EmptyListNoDisplay(lines: seq<string>, subst: Pv -> Pv, macros: MacroTable, ignore: seq<string>,
                           matches: Matcher, pairOf: PairFn, caget: Caget, catalog: Catalog,
                           title: string, sort: string)
    requires PrepareList(lines, subst, macros, ignore, matches) == []
    requires sort != "pv" && sort != "type"
    ensures Generate(lines, subst, macros, ignore, matches, pairOf, caget, catalog, title, sort).Failure?
  {
    assert GroupPvs([], pairOf) == Success(Grouping([], []));
    assert Entries([], []) == [];
    assert ClassifyAll(macros, [], caget) == Success([]);
    EmptyDisplayFails(catalog, 0, 0, title, sort, map[]);
  }

  /** The display's widgets are stacked from the top-left corner, each a
      filled template of the left column. */
  lemma GeneratedStacked(lines: seq<string>, subst: Pv -> Pv, macros: MacroTable, ignore: seq<string>,
                         matches: Matcher, pairOf: PairFn, caget: Caget, catalog: Catalog,
                         title: string, sort: string)
    requires Generate(lines, subst, macros, ignore, matches, pairOf, caget, catalog, title, sort).Success?
    ensures var d := Generate(lines, subst, macros, ignore, matches, pairOf, caget, catalog, title, sort).value;
            Stacked(d.widgets, catalog, 0, d.bottom) && Filled(d.widgets, catalog, 0)
  {
    var pvs := PrepareList(lines, subst, macros, ignore, matches);
    var g := GroupPvs(pvs, pairOf).value;
    var rows := ClassifyAll(macros, Entries(g.singles, g.pairs), caget).value;
    MakeDisplayStacked(catalog, rows, 0, 0, title, sort, map[]);
  }

  /** Every group classified into a record whose template exists is shown
      by a widget below the title: no group is lost between classification
      and the display. */
  lemma GroupsDisplayed(lines: seq<string>, subst: Pv -> Pv, macros: MacroTable, ignore: seq<string>,
                        matches: Matcher, pairOf: PairFn, caget: Caget, catalog: Catalog,
                        title: string, sort: string)
    requires Generate(lines, subst, macros, ignore, matches, pairOf, caget, catalog, title, sort).Success?
    ensures var g := GroupPvs(PrepareList(lines, subst, macros, ignore, matches), pairOf).value;
            var entries := Entries(g.singles, g.pairs);
            var top := if title != "" && TitleTemplate in catalog then 1 else 0;
            var ws := Generate(lines, subst, macros, ignore, matches, pairOf, caget, catalog, title, sort).value.widgets;
            forall k, p: PvInfo ::
              (0 <= k < |entries| && ClassifyEntry(macros, entries[k], caget) == Success(Some(p)) && p.template in catalog)
              ==> ShownFrom(ws, top, Merged(p, map[]))
  {
    var g := GroupPvs(PrepareList(lines, subst, macros, ignore, matches), pairOf).value;
    var entries := Entries(g.singles, g.pairs);
    var rows := ClassifyAll(macros, entries, caget).value;
    DisplayedAll(catalog, rows, 0, 0, title, sort, map[]);
    forall k, p: PvInfo | 0 <= k < |entries| && ClassifyEntry(macros, entries[k], caget) == Success(Some(p))
                          && p.template in catalog
      ensures p in rows && Merged(p, map[])["template"] in catalog
    {
      TemplateMerged(p);
    }
  }

  /** With no shared fields, the merged record's `template` is the
      record's. */
  lemma TemplateMerged(p: PvInfo)
    ensures Merged(p, map[])["template"] == p.template
  {
    MergedFields(p, map[]);
    assert FieldName(TemplateField) == "template";
  }

  /** A PV name a widget shows: absent, or one of the listed PVs. */
  predicate Shows(fields: Fields, key: string, pvs: seq<Pv>)
  {
    key in fields && (fields[key] == "" || fields[key] in pvs)
  }

  /** Every widget below the title names as readback and setpoint only PVs
      of the preprocessed list. */
  lemma DisplayedPvsListed(lines: seq<string>, subst: Pv -> Pv, macros: MacroTable, ignore: seq<string>,
                           matches: Matcher, pairOf: PairFn, caget: Caget, catalog: Catalog,
                           title: string, sort: string)
    requires Generate(lines, subst, macros, ignore, matches, pairOf, caget, catalog, title, sort).Success?
    ensures var pvs := PrepareList(lines, subst, macros, ignore, matches);
            var top := if title != "" && TitleTemplate in catalog then 1 else 0;
            var ws := Generate(lines, subst, macros, ignore, matches, pairOf, caget, catalog, title, sort).value.widgets;
            forall i :: top <= i < |ws| ==>
              Shows(ws[i].fields, "readback_pv", pvs) && Shows(ws[i].fields, "setpoint_pv", pvs)
  {
    var pvs := PrepareList(lines, subst, macros, ignore, matches);
    var g := GroupPvs(pvs, pairOf).value;
    var entries := Entries(g.singles, g.pairs);
    EntriesFromList(pvs, g, pairOf);
    RecordsListed(macros, entries, caget, pvs);
    DisplayListed(catalog, ClassifyAll(macros, entries, caget).value, title, sort, pvs);
  }

  /** Records naming listed PVs give a display whose record widgets name
      listed PVs. */
  lemma DisplayListed(catalog: Catalog, rows: seq<PvInfo>, title: string, sort: string, pvs: seq<Pv>)
    requires forall p :: p in rows ==> NamesListed(p, pvs)
    requires MakeDisplay(catalog, rows, 0, 0, title, sort, map[]).Success?
    ensures var top := if title != "" && TitleTemplate in catalog then 1 else 0;
            var ws := MakeDisplay(catalog, rows, 0, 0, title, sort, map[]).value.widgets;
            forall i :: top <= i < |ws| ==>
              Shows(ws[i].fields, "readback_pv", pvs) && Shows(ws[i].fields, "setpoint_pv", pvs)
  {
    DisplayedRecords(catalog, rows, 0, 0, title, sort, map[]);
    var top := if title != "" && TitleTemplate in catalog then 1 else 0;
    WidgetsListed(MakeDisplay(catalog, rows, 0, 0, title, sort, map[]).value.widgets, top, rows, pvs);
  }

  /** Both PV names of a record are absent or listed. */
  predicate NamesListed(p: PvInfo, pvs: seq<Pv>)
  {
    (p.readbackPv == "" || p.readbackPv in pvs) && (p.setpointPv == "" || p.setpointPv in pvs)
  }

  /** Classifying groups of listed PVs yields records naming listed PVs. */
  lemma RecordsListed(macros: MacroTable, entries: seq<seq<Pv>>, caget: Caget, pvs: seq<Pv>)
    requires forall k, x :: 0 <= k < |entries| && x in entries[k] ==> x in pvs
    requires ClassifyAll(macros, entries, caget).Success?
    ensures forall p :: p in ClassifyAll(macros, entries, caget).value ==> NamesListed(p, pvs)
  {
    ClassifiedFrom(macros, entries, caget);
  }

  /** Widgets showing records that name listed PVs name listed PVs. */
  lemma WidgetsListed(ws: seq<Widget>, top: nat, rows: seq<PvInfo>, pvs: seq<Pv>)
    requires forall p :: p in rows ==> NamesListed(p, pvs)
    requires forall i :: top <= i < |ws| ==> ShowsRecord(ws[i], rows, map[])
    ensures forall i :: top <= i < |ws| ==>
              Shows(ws[i].fields, "readback_pv", pvs) && Shows(ws[i].fields, "setpoint_pv", pvs)
  {
    forall i | top <= i < |ws|
      ensures Shows(ws[i].fields, "readback_pv", pvs) && Shows(ws[i].fields, "setpoint_pv", pvs)
    {
      assert ShowsRecord(ws[i], rows, map[]);
      var p :| p in rows && ws[i].fields == Merged(p, map[]);
      RecordShows(p, pvs);
    }
  }

  /** A record naming listed PVs, merged with no shared fields, shows them. */
  lemma RecordShows(p: PvInfo, pvs: seq<Pv>)
    requires NamesListed(p, pvs)
    ensures Shows(Merged(p, map[]), "readback_pv", pvs) && Shows(Merged(p, map[]), "setpoint_pv", pvs)
  {
    MergedFields(p, map[]);
    assert FieldName(ReadbackPv) == "readback_pv" && FieldName(SetpointPv) == "setpoint_pv";
  }
}

=== FILE: classify.dfy ===
/** `get_pv_info`: deciding, from the EPICS record types of one PV or of a
    grouped pair, which PV is the readback, which the setpoint, and which
    widget template displays them. */
module Classify {
  import opened Results
  import opened Macros

  /** `epics.caget(name)`: a Channel Access read, `None` when it times out
      or the channel does not exist. Reads are `<pv>.RTYP` for the record
      type and `<pv>.DESC` for the description. */
  type Caget = string -> Option<string>

  /** The widget family a record type is shown with. */
  datatype Category = Text | Binary | Menu

  /** Whether a record is read back (input) or written (output). */
  datatype Direction = Read | Write

  /** The access a group offers, once both its PVs are known. */
  datatype Access = ReadWrite | ReadOnly | WriteOnly

  /** One entry of the `rtype_groups` table. */
  datatype RecordKind = RecordKind(category: Category, direction: Direction)

  /** What `get_pv_info` returns: the five keys of its dict. */
  datatype PvInfo = PvInfo(readbackPv: Pv, setpointPv: Pv, desc: string, descPv: Pv, template: string)

  function CategoryName(c: Category): string
  {
    match c
    case Text => "text"
    case Binary => "binary"
    case Menu => "menu"
  }

  function AccessName(a: Access): string
  {
    match a
    case ReadWrite => "rw"
    case ReadOnly => "ro"
    case WriteOnly => "wo"
  }

  /** `group_to_template % locals()`: `<group>_<access>_group`. */
  function TemplateName(c: Category, a: Access): string
  {
    CategoryName(c) + "_" + AccessName(a) + "_group"
  }

  /** The `rtype_groups` table. `calcout` is listed as a readback, like
      `calc`. A missing value (a failed `caget`) is as unknown as a record
      type the table lacks. */
  function RecordGroup(rtype: Option<string>): (r: Option<RecordKind>)
    ensures rtype.None? ==> r.None?
    ensures r.Some? && r.value.category == Binary ==> rtype.value in {"bi", "bo"}
    ensures r.Some? && r.value.category == Menu ==> rtype.value in {"mbbi", "mbbo"}
    ensures r.Some? && r.value.direction == Write ==> rtype.value in {"ao", "bo", "stringout", "longout", "mbbo"}
  {
    if rtype.None? then None
    else
      var t := rtype.value;
      if t == "ai" then Some(RecordKind(Text, Read))
      else if t == "ao" then Some(RecordKind(Text, Write))
      else if t == "bi" then Some(RecordKind(Binary, Read))
      else if t == "bo" then Some(RecordKind(Binary, Write))
      else if t == "stringin" then Some(RecordKind(Text, Read))
      else if t == "stringout" then Some(RecordKind(Text, Write))
      else if t == "longin" then Some(RecordKind(Text, Read))
      else if t == "longout" then Some(RecordKind(Text, Write))
      else if t == "mbbi" then Some(RecordKind(Menu, Read))
      else if t == "mbbo" then Some(RecordKind(Menu, Write))
      else if t == "calc" then Some(RecordKind(Text, Read))
      else if t == "calcout" then Some(RecordKind(Text, Read))
      else None
  }

  /** The record types read over Channel Access, one per PV, after
      expanding macros in the PV name. */
  function RecordTypes(pvs: seq<Pv>, macros: MacroTable, caget: Caget): (r: seq<Option<string>>)
    ensures |r| == |pvs|
    ensures forall k :: 0 <= k < |pvs| ==> r[k] == caget(ExpandMacros(pvs[k], macros) + ".RTYP")
  {
    seq(|pvs|, k requires 0 <= k < |pvs| => caget(ExpandMacros(pvs[k], macros) + ".RTYP"))
  }

  /** The table entry of every record type, or `None` as soon as one is
      unknown (the `KeyError` branch). */
  function Kinds(types: seq<Option<string>>): (r: Option<seq<RecordKind>>)
    ensures r.Some? <==> forall k :: 0 <= k < |types| ==> RecordGroup(types[k]).Some?
    ensures r.Some? ==> |r.value| == |types| &&
                        forall k :: 0 <= k < |types| ==> r.value[k] == RecordGroup(types[k]).value
    decreases |types|
  {
    if |types| == 0 then Some([])
    else match (RecordGroup(types[0]), Kinds(types[1..]))
      case (Some(kind), Some(rest)) => Some([kind] + rest)
      case _ => None
  }

  /** One position of `zip(pvs, rtype_info)`. */
  datatype Slot = Slot(pv: Pv, kind: RecordKind)

  /** `zip` stops at the shorter of the two lists. */
  function Zip(pvs: seq<Pv>, kinds: seq<RecordKind>): (z: seq<Slot>)
    ensures |z| == if |pvs| <= |kinds| then |pvs| else |kinds|
    ensures forall k :: 0 <= k < |z| ==> z[k] == Slot(pvs[k], kinds[k])
  {
    var n := if |pvs| <= |kinds| then |pvs| else |kinds|;
    seq(n, k requires 0 <= k < n => Slot(pvs[k], kinds[k]))
  }

  /** The last position of the zip whose record has direction `d`. */
  function LastIndex(z: seq<Slot>, d: Direction): (r: Option<nat>)
    ensures r.Some? ==> r.value < |z| && z[r.value].kind.direction == d &&
                        forall j :: r.value < j < |z| ==> z[j].kind.direction != d
    ensures r.None? ==> forall j :: 0 <= j < |z| ==> z[j].kind.direction != d
    decreases |z|
  {
    if |z| == 0 then None
    else if z[|z| - 1].kind.direction == d then Some(|z| - 1)
    else LastIndex(z[..|z| - 1], d)
  }

  /** The loop over the zip assigns `readback_pv` (or `setpoint_pv`) at
      every match, so the last one wins; `''` when there is none. */
  function LastPv(z: seq<Slot>, d: Direction): Pv
  {
    match LastIndex(z, d)
    case Some(i) => z[i].pv
    case None => ""
  }

  /** The template's access part: an empty name counts as absent (`if
      readback_pv:`). */
  function AccessFor(readback: Pv, setpoint: Pv): Access
    requires readback != "" || setpoint != ""
  {
    if readback != "" then (if setpoint != "" then ReadWrite else ReadOnly) else WriteOnly
  }

  /** The description: only when none is given and macros are set is the
      `.DESC` field read (an unanswered read leaves it empty); in every
      other case, an explicitly given description included, the readback
      PV name is used. */
  function Description(macros: MacroTable, description: string, readback: Pv, descPv: Pv, caget: Caget): (r: string)
    ensures description != "" || |macros| == 0 ==> r == readback
    ensures description == "" && |macros| > 0 ==>
              (r == "" && caget(ExpandMacros(descPv, macros) + ".DESC").None?) ||
              caget(ExpandMacros(descPv, macros) + ".DESC") == Some(r)
  {
    if description == "" && |macros| > 0 then
      match caget(ExpandMacros(descPv, macros) + ".DESC")
      case Some(d) => d
      case None => ""
    else readback
  }

  /** `pv` is what the loop over `zip(pvs, rtype_info)` leaves in the
      variable for direction `d`: the name at the last zipped position
      whose record has that direction, or `''` when there is none. */
  ghost predicate LastOf(pv: Pv, pvs: seq<Pv>, kinds: seq<RecordKind>, d: Direction)
  {
    var n := if |pvs| <= |kinds| then |pvs| else |kinds|;
    || (exists i :: 0 <= i < n && kinds[i].direction == d && pvs[i] == pv &&
                    forall j :: i < j < n ==> kinds[j].direction != d)
    || (pv == "" && forall i :: 0 <= i < n ==> kinds[i].direction != d)
  }

  /** The loop leaves one name per direction. */
  lemma LastOfUnique(a: Pv, b: Pv, pvs: seq<Pv>, kinds: seq<RecordKind>, d: Direction)
    ensures LastOf(a, pvs, kinds, d) && LastOf(b, pvs, kinds, d) ==> a == b
  {
  }

  /** The computed last name is the one the loop leaves. */
  lemma LastPvSpec(pvs: seq<Pv>, kinds: seq<RecordKind>, d: Direction)
    ensures LastOf(LastPv(Zip(pvs, kinds), d), pvs, kinds, d)
  {
    var z := Zip(pvs, kinds);
    match LastIndex(z, d)
    case Some(i) =>
      assert z[i] == Slot(pvs[i], kinds[i]);
      assert forall j :: i < j < |z| ==> z[j] == Slot(pvs[j], kinds[j]);
    case None =>
      assert forall j :: 0 <= j < |z| ==> z[j] == Slot(pvs[j], kinds[j]);
  }

  /** What `get_pv_info` answers once every record type is known. Two
      records of one direction raise; so does a group in which neither
      direction leaves a named PV. Otherwise the readback and the setpoint
      are the names the loop leaves, the description PV is the readback
      when it is named and the setpoint otherwise, the description is
      chosen as `Description` says, and the template has the family of
      the last zipped record and the access of the named PVs. */
  ghost predicate Answers(r: Result<Option<PvInfo>>, macros: MacroTable, pvs: seq<Pv>, kinds: seq<RecordKind>,
                          description: string, caget: Caget)
  {
    var n := if |pvs| <= |kinds| then |pvs| else |kinds|;
    if |kinds| == 2 && kinds[0].direction == kinds[1].direction then r == Failure(InvalidPairing)
    else if LastOf("", pvs, kinds, Read) && LastOf("", pvs, kinds, Write) then r == Failure(NoPv)
    else
      && r.Success? && r.value.Some?
      && var info := r.value.value;
         && LastOf(info.readbackPv, pvs, kinds, Read)
         && LastOf(info.setpointPv, pvs, kinds, Write)
         && (info.readbackPv != "" || info.setpointPv != "")
         && info.descPv == (if info.readbackPv != "" then info.readbackPv else info.setpointPv)
         && info.desc == Description(macros, description, info.readbackPv, info.descPv, caget)
         && 0 < n
         && info.template == TemplateName(kinds[n - 1].category, AccessFor(info.readbackPv, info.setpointPv))
  }

  /** `get_pv_info` once every record type is known. */
  function Describe(macros: MacroTable, pvs: seq<Pv>, kinds: seq<RecordKind>, description: string, caget: Caget): (r: Result<Option<PvInfo>>)
    ensures Answers(r, macros, pvs, kinds, description, caget)
    ensures r.Failure? ==> r.error in {InvalidPairing, NoPv}
    ensures r.Success? ==> r.value.Some? && WellFormed(r.value.value, pvs, macros, description)
  {
    if |kinds| == 2 && kinds[0].direction == kinds[1].direction then Failure(InvalidPairing)
    else
      var z := Zip(pvs, kinds);
      var readback := LastPv(z, Read);
      var setpoint := LastPv(z, Write);
      LastPvSpec(pvs, kinds, Read);
      LastPvSpec(pvs, kinds, Write);
      LastOfUnique("", readback, pvs, kinds, Read);
      LastOfUnique("", setpoint, pvs, kinds, Write);
      LastPvIn(z, pvs, kinds, Read);
      LastPvIn(z, pvs, kinds, Write);
      if readback == "" && setpoint == "" then Failure(NoPv)
      else
        var descPv := if readback != "" then readback else setpoint;
        var last := z[|z| - 1].kind.category;
        Success(Some(PvInfo(readback, setpoint, Description(macros, description, readback, descPv, caget),
                            descPv, TemplateName(last, AccessFor(readback, setpoint)))))
  }

  /** The record types used: the explicit list when it has exactly two
      entries, otherwise one Channel Access read of `<pv>.RTYP` per PV,
      with macros expanded in the name. */
  function TypesUsed(macros: MacroTable, pvs: seq<Pv>, rtype: seq<string>, caget: Caget): (r: seq<Option<string>>)
    ensures |rtype| == 2 ==> |r| == 2 && forall k :: 0 <= k < 2 ==> r[k] == Some(rtype[k])
    ensures |rtype| != 2 ==> |r| == |pvs|
    ensures |rtype| != 2 ==> forall k :: 0 <= k < |pvs| ==> r[k] == caget(ExpandMacros(pvs[k], macros) + ".RTYP")
  {
    if |rtype| == 2 then [Some(rtype[0]), Some(rtype[1])] else RecordTypes(pvs, macros, caget)
  }

  /** `get_pv_info(macros, pvs, rtype, description)`. `Success(None)` is the
      function's `return` after an unknown record type; the `ValueError`s
      are the three failures. */
  function GetPvInfo(macros: MacroTable, pvs: seq<Pv>, rtype: seq<string>, description: string, caget: Caget): (r: Result<Option<PvInfo>>)
    ensures r == Failure(MacrosRequired) <==> |rtype| != 2 && |macros| == 0
    ensures r.Failure? ==> r.error in {MacrosRequired, InvalidPairing, NoPv}
    ensures r.Success? && r.value.Some? ==> WellFormed(r.value.value, pvs, macros, description)
    ensures |rtype| == 2 || |macros| > 0 ==>
              match Kinds(TypesUsed(macros, pvs, rtype, caget))
              case None => r == Success(None)
              case Some(kinds) => Answers(r, macros, pvs, kinds, description, caget)
  {
    if |rtype| != 2 && |macros| == 0 then Failure(MacrosRequired)
    else
      match Kinds(TypesUsed(macros, pvs, rtype, caget))
      case None => Success(None)
      case Some(kinds) => Describe(macros, pvs, kinds, description, caget)
  }

  /** The nine template names `group_to_template` can produce. */
  predicate IsTemplateName(t: string)
  {
    exists c: Category, a: Access :: t == TemplateName(c, a)
  }

  /** What every record `get_pv_info` returns satisfies: at least one of
      readback and setpoint is named and each named one is among the PVs;
      the description PV is the readback when there is one and the
      setpoint otherwise; the template's access part says which of the two
      are present; and an explicit description, or an empty macro table,
      yields the readback name as description. */
  predicate WellFormed(info: PvInfo, pvs: seq<Pv>, macros: MacroTable, description: string)
  {
    && (info.readbackPv != "" || info.setpointPv != "")
    && (info.readbackPv == "" || info.readbackPv in pvs)
    && (info.setpointPv == "" || info.setpointPv in pvs)
    && info.descPv == (if info.readbackPv != "" then info.readbackPv else info.setpointPv)
    && (exists c: Category :: info.template == TemplateName(c, AccessFor(info.readbackPv, info.setpointPv)))
    && (description != "" || |macros| == 0 ==> info.desc == info.readbackPv)
  }

  lemma LastPvIn(z: seq<Slot>, pvs: seq<Pv>, kinds: seq<RecordKind>, d: Direction)
    requires z == Zip(pvs, kinds)
    ensures LastPv(z, d) == "" || LastPv(z, d) in pvs
  {
    match LastIndex(z, d)
    case Some(i) =>
      assert z[i].pv == pvs[i];
    case None =>
  }

  /** Every known record type keeps its table entry under `RecordGroup`. */
  lemma {:induction false} KindsOfKnown(types: seq<Option<string>>, kinds: seq<RecordKind>)
    requires |types| == |kinds|
    requires forall k :: 0 <= k < |types| ==> RecordGroup(types[k]) == Some(kinds[k])
    ensures Kinds(types) == Some(kinds)
    decreases |types|
  {
    if |types| > 0 {
      KindsOfKnown(types[1..], kinds[1..]);
      assert kinds == [kinds[0]] + kinds[1..];
    }
  }

  /** One PV whose record type Channel Access reports: a readback is shown
      read-only and a setpoint write-only, the PV is its own description
      PV, and the template has the family of its record. */
  lemma ReadSingle(macros: MacroTable, pv: Pv, k: RecordKind, caget: Caget)
    requires |macros| > 0 && pv != ""
    requires RecordGroup(caget(ExpandMacros(pv, macros) + ".RTYP")) == Some(k)
    ensures var readback := if k.direction == Read then pv else "";
            var setpoint := if k.direction == Write then pv else "";
            GetPvInfo(macros, [pv], [], "", caget)
              == Success(Some(PvInfo(readback, setpoint, Description(macros, "", readback, pv, caget), pv,
                                     TemplateName(k.category, if k.direction == Read then ReadOnly else WriteOnly))))
  {
    KindsOfKnown(TypesUsed(macros, [pv], [], caget), [k]);
    DescribeSingle(macros, pv, k, caget);
  }

  /** One named PV of a known kind makes the read-only or write-only
      record of that PV. */
  lemma DescribeSingle(macros: MacroTable, pv: Pv, k: RecordKind, caget: Caget)
    requires pv != ""
    ensures var readback := if k.direction == Read then pv else "";
            var setpoint := if k.direction == Write then pv else "";
            Describe(macros, [pv], [k], "", caget)
              == Success(Some(PvInfo(readback, setpoint, Description(macros, "", readback, pv, caget), pv,
                                     TemplateName(k.category, if k.direction == Read then ReadOnly else WriteOnly))))
  {
    assert Zip([pv], [k]) == [Slot(pv, k)];
  }

  /** Two PVs whose record types Channel Access reports: one direction
      twice raises the pairing error; a readback and a setpoint, in either
      order, make the read-write record of the readback, in the family of
      the second PV's record. */
  lemma ReadPair(macros: MacroTable, a: Pv, b: Pv, ka: RecordKind, kb: RecordKind, caget: Caget)
    requires |macros| > 0 && a != "" && b != ""
    requires RecordGroup(caget(ExpandMacros(a, macros) + ".RTYP")) == Some(ka)
    requires RecordGroup(caget(ExpandMacros(b, macros) + ".RTYP")) == Some(kb)
    ensures ka.direction == kb.direction ==> GetPvInfo(macros, [a, b], [], "", caget) == Failure(InvalidPairing)
    ensures var readback := if ka.direction == Read then a else b;
            var setpoint := if ka.direction == Read then b else a;
            ka.direction != kb.direction ==>
              GetPvInfo(macros, [a, b], [], "", caget)
                == Success(Some(PvInfo(readback, setpoint,
                                       Description(macros, "", readback, readback, caget),
                                       readback, TemplateName(kb.category, ReadWrite))))
  {
    KindsOfKnown(TypesUsed(macros, [a, b], [], caget), [ka, kb]);
    if ka.direction != kb.direction {
      DescribePair(macros, a, b, ka, kb, caget);
    }
  }

  /** A readback and a setpoint, in either order, make a read-write group:
      the readback names the description PV and, when no description is
      given and macros are set, the description comes from its `.DESC`
      field; the template's family is that of the second PV. */
  lemma PairOfOppositeDirections(macros: MacroTable, a: Pv, b: Pv, ta: string, tb: string, caget: Caget)
    requires a != "" && b != ""
    requires RecordGroup(Some(ta)).Some? && RecordGroup(Some(tb)).Some?
    requires RecordGroup(Some(ta)).value.direction != RecordGroup(Some(tb)).value.direction
    ensures var readback := if RecordGroup(Some(ta)).value.direction == Read then a else b;
            var setpoint := if RecordGroup(Some(ta)).value.direction == Read then b else a;
            GetPvInfo(macros, [a, b], [ta, tb], "", caget)
              == Success(Some(PvInfo(readback, setpoint,
                                     Description(macros, "", readback, readback, caget),
                                     readback,
                                     TemplateName(RecordGroup(Some(tb)).value.category, ReadWrite))))
  {
    var kinds := [RecordGroup(Some(ta)).value, RecordGroup(Some(tb)).value];
    KindsOfKnown([Some(ta), Some(tb)], kinds);
    assert GetPvInfo(macros, [a, b], [ta, tb], "", caget) == Describe(macros, [a, b], kinds, "", caget);
    DescribePair(macros, a, b, kinds[0], kinds[1], caget);
  }

  /** Two named PVs of opposite directions make a read-write record. */
  lemma DescribePair(macros: MacroTable, a: Pv, b: Pv, ka: RecordKind, kb: RecordKind, caget: Caget)
    requires a != "" && b != "" && ka.direction != kb.direction
    ensures var readback := if ka.direction == Read then a else b;
            var setpoint := if ka.direction == Read then b else a;
            Describe(macros, [a, b], [ka, kb], "", caget)
              == Success(Some(PvInfo(readback, setpoint,
                                     Description(macros, "", readback, readback, caget),
                                     readback, TemplateName(kb.category, ReadWrite))))
  {
    var z := Zip([a, b], [ka, kb]);
    assert z == [Slot(a, ka), Slot(b, kb)];
  }

  /** The template follows the second PV's family: a binary readback
      (such as `bi`) with a text setpoint (such as `ao`) is drawn as
      `text_rw_group`. */
  lemma TemplateOfLastPv(macros: MacroTable, a: Pv, b: Pv, ta: string, tb: string, caget: Caget)
    requires a != "" && b != ""
    requires RecordGroup(Some(ta)) == Some(RecordKind(Binary, Read))
    requires RecordGroup(Some(tb)) == Some(RecordKind(Text, Write))
    ensures var r := GetPvInfo(macros, [a, b], [ta, tb], "", caget);
            r.Success? && r.value.Some? && r.value.value.template == "text_rw_group"
  {
    PairOfOppositeDirections(macros, a, b, ta, tb, caget);
    TextReadWrite();
  }

  lemma TextReadWrite()
    ensures TemplateName(Text, ReadWrite) == "text_rw_group"
  {
  }

  /** `bi` is a binary readback and `ao` a text setpoint. */
  lemma BiAoKinds()
    ensures RecordGroup(Some("bi")) == Some(RecordKind(Binary, Read))
    ensures RecordGroup(Some("ao")) == Some(RecordKind(Text, Write))
  {
  }

  /** A record type missing from the table (or unreadable) makes
      `get_pv_info` give up on the group without an error. */
  lemma UnknownTypeDropped(macros: MacroTable, pvs: seq<Pv>, rtype: seq<string>, description: string, caget: Caget, k: nat)
    requires |rtype| == 2 || |macros| > 0
    requires k < |TypesUsed(macros, pvs, rtype, caget)|
    requires RecordGroup(TypesUsed(macros, pvs, rtype, caget)[k]).None?
    ensures GetPvInfo(macros, pvs, rtype, description, caget) == Success(None)
  {
  }

  /** Two known record types of the same direction are rejected, even
      when only one PV is given alongside them. */
  lemma SameDirectionRejected(macros: MacroTable, pvs: seq<Pv>, ta: string, tb: string, description: string, caget: Caget)
    requires RecordGroup(Some(ta)).Some? && RecordGroup(Some(tb)).Some?
    requires RecordGroup(Some(ta)).value.direction == RecordGroup(Some(tb)).value.direction
    ensures GetPvInfo(macros, pvs, [ta, tb], description, caget) == Failure(InvalidPairing)
  {
    KindsOfKnown([Some(ta), Some(tb)], [RecordGroup(Some(ta)).value, RecordGroup(Some(tb)).value]);
  }

  /** The groups `display_from_pv_list` classifies: every unpaired PV on
      its own, then every pair. */
  function Entries(singles: seq<Pv>, pairs: seq<(Pv, Pv)>): (r: seq<seq<Pv>>)
    ensures |r| == |singles| + |pairs|
    ensures forall k :: 0 <= k < |singles| ==> r[k] == [singles[k]]
    ensures forall k :: 0 <= k < |pairs| ==> r[|singles| + k] == [pairs[k].0, pairs[k].1]
  {
    seq(|singles|, k requires 0 <= k < |singles| => [singles[k]])
      + seq(|pairs|, k requires 0 <= k < |pairs| => [pairs[k].0, pairs[k].1])
  }

  /** `get_pv_info(macros, pvs=entry)` as `display_from_pv_list` calls it:
      no record types and no description given. */
  function ClassifyEntry(macros: MacroTable, entry: seq<Pv>, caget: Caget): Result<Option<PvInfo>>
  {
    GetPvInfo(macros, entry, [], "", caget)
  }

  /** Reference filter `[v for v in results if v is not None]`: the values
      of the `Some` results, in order. */
  function Somes<T>(results: seq<Result<Option<T>>>): seq<T>
    decreases |results|
  {
    if |results| == 0 then []
    else (if results[0].Success? && results[0].value.Some? then [results[0].value.value] else [])
         + Somes(results[1..])
  }

  /** A value is kept by the filter exactly when one of the results holds it. */
  lemma {:induction false} SomesMembers<T>(results: seq<Result<Option<T>>>, v: T)
    ensures v in Somes(results) <==> exists k :: 0 <= k < |results| && results[k] == Success(Some(v))
    decreases |results|
  {
    if |results| > 0 {
      SomesMembers(results[1..], v);
      assert forall k :: 1 <= k < |results| ==> results[k] == results[1..][k - 1];
      if exists k :: 1 <= k < |results| && results[k] == Success(Some(v)) {
        var k :| 1 <= k < |results| && results[k] == Success(Some(v));
        assert results[1..][k - 1] == Success(Some(v));
      }
    }
  }

  /** Collecting the per-group results the way `display_from_pv_list`
      does: the first error aborts, and `None` results are filtered out
      while every other record is kept in order. */
  function Collect<T>(results: seq<Result<Option<T>>>): (r: Result<seq<T>>)
    ensures r.Success? <==> forall k :: 0 <= k < |results| ==> results[k].Success?
    ensures r.Failure? ==> exists k :: 0 <= k < |results| && results[k] == Failure(r.error)
                            && forall j :: 0 <= j < k ==> results[j].Success?
    ensures r.Success? ==> r.value == Somes(results) && |r.value| <= |results|
    decreases |results|
  {
    if |results| == 0 then Success([])
    else
      var head :- results[0];
      var tail :- Collect(results[1..]);
      assert forall k :: 1 <= k < |results| ==> results[k] == results[1..][k - 1];
      Success(if head.Some? then [head.value] + tail else tail)
  }

  /** Every collected value is the value of one of the results, and every
      value of a result is collected. */
  lemma CollectedFrom<T>(results: seq<Result<Option<T>>>)
    requires Collect(results).Success?
    ensures var vs := Collect(results).value;
            forall v :: v in vs <==> exists k :: 0 <= k < |results| && results[k] == Success(Some(v))
  {
    forall v
      ensures v in Collect(results).value <==> exists k :: 0 <= k < |results| && results[k] == Success(Some(v))
    {
      SomesMembers(results, v);
    }
  }

  /** `[get_pv_info(macros, pvs=pv) for pv in others + groups]`. */
  function Classifications(macros: MacroTable, entries: seq<seq<Pv>>, caget: Caget): (r: seq<Result<Option<PvInfo>>>)
    ensures |r| == |entries|
    ensures forall k :: 0 <= k < |entries| ==> r[k] == ClassifyEntry(macros, entries[k], caget)
  {
    seq(|entries|, k requires 0 <= k < |entries| => ClassifyEntry(macros, entries[k], caget))
  }

  /** The classification step of `display_from_pv_list`: it succeeds
      exactly when no group raises, it raises only `get_pv_info`'s errors,
      and its records are exactly the records of the groups. */
  function ClassifyAll(macros: MacroTable, entries: seq<seq<Pv>>, caget: Caget): (r: Result<seq<PvInfo>>)
    ensures r.Success? <==> forall k :: 0 <= k < |entries| ==> ClassifyEntry(macros, entries[k], caget).Success?
    ensures r.Failure? ==> r.error in {MacrosRequired, InvalidPairing, NoPv}
    ensures r.Success? ==> forall p :: p in r.value <==>
              exists k :: 0 <= k < |entries| && ClassifyEntry(macros, entries[k], caget) == Success(Some(p))
  {
    var results := Classifications(macros, entries, caget);
    var r := Collect(results);
    if r.Success? then CollectedFrom(results); r else r
  }

  /** Every classified record is a well-formed answer for one of the
      groups: its PVs come from that group. */
  lemma ClassifiedFrom(macros: MacroTable, entries: seq<seq<Pv>>, caget: Caget)
    requires ClassifyAll(macros, entries, caget).Success?
    ensures forall p :: p in ClassifyAll(macros, entries, caget).value ==>
              exists k :: 0 <= k < |entries| && WellFormed(p, entries[k], macros, "")
  {
    var rows := ClassifyAll(macros, entries, caget).value;
    forall p | p in rows
      ensures exists k :: 0 <= k < |entries| && WellFormed(p, entries[k], macros, "")
    {
      var k :| 0 <= k < |entries| && ClassifyEntry(macros, entries[k], caget) == Success(Some(p));
      assert GetPvInfo(macros, entries[k], [], "", caget) == Success(Some(p));
    }
  }

  /** Without macros, any group at all stops the display with the
      record-type error. */
  lemma NoMacrosFails(entries: seq<seq<Pv>>, caget: Caget)
    requires |entries| > 0
    ensures ClassifyAll([], entries, caget) == Failure(MacrosRequired)
  {
    assert Classifications([], entries, caget)[0] == Failure(MacrosRequired);
  }
}

=== FILE: grouper.dfy ===
/** The greedy PV grouper of `main`: walk a snapshot of the list; when the
    `--group` rewrite maps `pv1` to a different `pv2` that is still in the
    list, remove the first occurrence of each and record the pair. */
module Grouper {
  import opened Results
  import opened Seqs
  import opened Macros

  /** The `re.sub(pattern, replace, pv)` of `--group`; the regex engine is
      not modelled. */
  type PairFn = Pv -> Pv

  /** The outcome of grouping: PVs left unpaired, and the pairs in the
      order they were made. */
  datatype Grouping = Grouping(singles: seq<Pv>, pairs: seq<(Pv, Pv)>)

  /** The loop body, one snapshot element at a time. `rest` is the
      unvisited snapshot, `others` the live list, `pairs` the pairs so far.
      When `pv1` was already consumed but its partner is still listed,
      `others.remove(pv1)` raises. */
  function GroupLoop(rest: seq<Pv>, others: seq<Pv>, pairs: seq<(Pv, Pv)>, pairOf: PairFn): (r: Result<Grouping>)
    ensures r.Success? ==> |pairs| <= |r.value.pairs| && r.value.pairs[..|pairs|] == pairs
    ensures r.Failure? ==> exists k :: 0 <= k < |rest| && r.error == NotInList(rest[k]) && pairOf(rest[k]) != rest[k]
    decreases |rest|
  {
    if |rest| == 0 then Success(Grouping(others, pairs))
    else
      var pv1 := rest[0];
      var pv2 := pairOf(pv1);
      if pv1 != pv2 && pv2 in others then
        if pv1 !in others then Failure(NotInList(pv1))
        else
          var without1 := RemoveFirst(others, pv1);
          assert multiset(without1)[pv2] == multiset(others)[pv2];
          var r := GroupLoop(rest[1..], RemoveFirst(without1, pv2), pairs + [(pv1, pv2)], pairOf);
          PrefixStep(pairs, (pv1, pv2), r);
          FailureStep(rest, r, pairOf);
          r
      else
        var r := GroupLoop(rest[1..], others, pairs, pairOf);
        FailureStep(rest, r, pairOf);
        r
  }

  /** Pairs that extend `pairs + [p]` extend `pairs`. */
  lemma PrefixStep(pairs: seq<(Pv, Pv)>, p: (Pv, Pv), r: Result<Grouping>)
    requires r.Success? ==> |pairs| + 1 <= |r.value.pairs| && r.value.pairs[..|pairs| + 1] == pairs + [p]
    ensures r.Success? ==> |pairs| <= |r.value.pairs| && r.value.pairs[..|pairs|] == pairs
  {
    if r.Success? {
      assert r.value.pairs[..|pairs|] == r.value.pairs[..|pairs| + 1][..|pairs|];
    }
  }

  /** A failure naming a PV of the rest of the snapshot names one of the
      snapshot. */
  lemma FailureStep(rest: seq<Pv>, r: Result<Grouping>, pairOf: PairFn)
    requires |rest| > 0
    requires r.Failure? ==> exists k :: 0 <= k < |rest[1..]| && r.error == NotInList(rest[1..][k]) && pairOf(rest[1..][k]) != rest[1..][k]
    ensures r.Failure? ==> exists k :: 0 <= k < |rest| && r.error == NotInList(rest[k]) && pairOf(rest[k]) != rest[k]
  {
    if r.Failure? {
      var k :| 0 <= k < |rest[1..]| && r.error == NotInList(rest[1..][k]) && pairOf(rest[1..][k]) != rest[1..][k];
      assert rest[1..][k] == rest[k + 1];
    }
  }

  /** Grouping a preprocessed PV list: every pair is `(a, f(a))` with
      `f(a) != a`; singles and paired PVs together are the input as a
      multiset; singles keep their input order and pairs come in the order
      of their first PVs; and no single's partner is left among the singles.
      The only failure is `list.remove` of a visited PV with a partner. */
  function GroupPvs(pvs: seq<Pv>, pairOf: PairFn): (r: Result<Grouping>)
    ensures r.Success? ==> GroupingOk(pvs, r.value, pairOf)
    ensures r.Failure? ==> exists k :: 0 <= k < |pvs| && r.error == NotInList(pvs[k]) && pairOf(pvs[k]) != pvs[k]
    ensures r.Success? && Distinct(pvs) ==> FirstMatchWins(pvs, r.value, pairOf)
  {
    GroupStart(pvs, pairOf);
    GroupLoop(pvs, pvs, [], pairOf)
  }

  /** Both PVs of every pair, in order. */
  function Flatten(pairs: seq<(Pv, Pv)>): seq<Pv>
  {
    if |pairs| == 0 then []
    else Flatten(pairs[..|pairs| - 1]) + [pairs[|pairs| - 1].0, pairs[|pairs| - 1].1]
  }

  /** The first PV of every pair, in order. */
  function Firsts(pairs: seq<(Pv, Pv)>): seq<Pv>
  {
    seq(|pairs|, k requires 0 <= k < |pairs| => pairs[k].0)
  }

  lemma FlattenSnoc(pairs: seq<(Pv, Pv)>, p: (Pv, Pv))
    ensures Flatten(pairs + [p]) == Flatten(pairs) + [p.0, p.1]
    ensures Firsts(pairs + [p]) == Firsts(pairs) + [p.0]
  {
    assert (pairs + [p])[..|pairs|] == pairs;
  }

  lemma {:induction false} FlattenMembers(pairs: seq<(Pv, Pv)>)
    ensures forall k :: 0 <= k < |pairs| ==> pairs[k].0 in Flatten(pairs) && pairs[k].1 in Flatten(pairs)
    decreases |pairs|
  {
    if |pairs| > 0 {
      var init := pairs[..|pairs| - 1];
      FlattenMembers(init);
      assert forall k :: 0 <= k < |init| ==> init[k] == pairs[k];
    }
  }

  /** Moving the head of `rest` to the end of `f` keeps the concatenation. */
  lemma SnocConcat(f: seq<Pv>, rest: seq<Pv>)
    requires |rest| > 0
    ensures f + [rest[0]] + rest[1..] == f + rest
  {
    assert rest == [rest[0]] + rest[1..];
  }

  /** Every pair is `(a, f(a))` with `f(a) != a`. */
  predicate ValidPairs(pairs: seq<(Pv, Pv)>, pairOf: PairFn)
  {
    forall k :: 0 <= k < |pairs| ==> pairs[k].1 == pairOf(pairs[k].0) && pairs[k].0 != pairs[k].1
  }

  /** What a successful grouping promises about its input. */
  ghost predicate GroupingOk(input: seq<Pv>, g: Grouping, pairOf: PairFn)
  {
    && ValidPairs(g.pairs, pairOf)
    && multiset(g.singles) + multiset(Flatten(g.pairs)) == multiset(input)
    && IsSubseq(g.singles, input)
    && IsSubseq(Firsts(g.pairs), input)
    && (forall x :: x in g.singles && pairOf(x) != x ==> pairOf(x) !in g.singles)
  }

  /** A PV whose partner is still listed has no more copies listed than
      are left to visit: each visit of it pairs one copy away. */
  ghost predicate Unpaired(rest: seq<Pv>, others: seq<Pv>, pairOf: PairFn)
  {
    forall x :: pairOf(x) != x && pairOf(x) in others ==> multiset(others)[x] <= multiset(rest)[x]
  }

  /** The invariant of the grouping loop. */
  ghost predicate LoopInv(input: seq<Pv>, rest: seq<Pv>, others: seq<Pv>, pairs: seq<(Pv, Pv)>, pairOf: PairFn)
  {
    && ValidPairs(pairs, pairOf)
    && multiset(others) + multiset(Flatten(pairs)) == multiset(input)
    && IsSubseq(others, input)
    && IsSubseq(Firsts(pairs) + rest, input)
    && Unpaired(rest, others, pairOf)
  }

  /** Taking `pv1` (the visited PV) and `pv2` out of the live list keeps
      every PV whose partner is still listed within its remaining visits. */
  lemma UnpairedStep(rest: seq<Pv>, others: seq<Pv>, o2: seq<Pv>, pv2: Pv, pairOf: PairFn)
    requires |rest| > 0 && rest[0] != pv2
    requires multiset(o2) + multiset{rest[0], pv2} == multiset(others)
    requires Unpaired(rest, others, pairOf)
    ensures Unpaired(rest[1..], o2, pairOf)
  {
    assert multiset(rest) == multiset{rest[0]} + multiset(rest[1..]) by {
      assert rest == [rest[0]] + rest[1..];
    }
    forall x | pairOf(x) != x && pairOf(x) in o2
      ensures multiset(o2)[x] <= multiset(rest[1..])[x]
    {
      assert multiset(o2)[pairOf(x)] <= multiset(others)[pairOf(x)];
      assert multiset(others)[x] <= multiset(rest)[x];
    }
  }

  /** Removing the first occurrences of two distinct listed PVs. */
  lemma RemoveTwo(others: seq<Pv>, pv1: Pv, pv2: Pv)
    requires pv1 != pv2 && pv1 in others && pv2 in others
    ensures pv2 in RemoveFirst(others, pv1)
    ensures multiset(RemoveFirst(RemoveFirst(others, pv1), pv2)) + multiset{pv1, pv2} == multiset(others)
    ensures IsSubseq(RemoveFirst(RemoveFirst(others, pv1), pv2), others)
  {
    var o1 := RemoveFirst(others, pv1);
    assert multiset(o1)[pv2] == multiset(others)[pv2];
    var o2 := RemoveFirst(o1, pv2);
    RemoveBalance(multiset(others), multiset(o1), multiset(o2), pv1, pv2);
    RemoveFirstSubseq(others, pv1);
    RemoveFirstSubseq(o1, pv2);
    SubseqTrans(o2, o1, others);
  }

  /** Recording the pair `(rest[0], pv2)` moves `rest[0]` from the
      unvisited snapshot to the first PVs of the pairs. */
  lemma PairStepFirsts(pairs: seq<(Pv, Pv)>, rest: seq<Pv>, pv2: Pv)
    requires |rest| > 0
    ensures Firsts(pairs + [(rest[0], pv2)]) + rest[1..] == Firsts(pairs) + rest
    ensures Flatten(pairs + [(rest[0], pv2)]) == Flatten(pairs) + [rest[0], pv2]
  {
    FlattenSnoc(pairs, (rest[0], pv2));
    SnocConcat(Firsts(pairs), rest);
  }

  /** Moving two PVs from the live list into a new pair keeps the
      multiset balance. */
  lemma BalanceStep(input: seq<Pv>, others: seq<Pv>, o2: seq<Pv>, pairs: seq<(Pv, Pv)>, pv1: Pv, pv2: Pv)
    requires multiset(o2) + multiset{pv1, pv2} == multiset(others)
    requires multiset(others) + multiset(Flatten(pairs)) == multiset(input)
    ensures multiset(o2) + multiset(Flatten(pairs + [(pv1, pv2)])) == multiset(input)
  {
    FlattenSnoc(pairs, (pv1, pv2));
    assert multiset(Flatten(pairs) + [pv1, pv2]) == multiset(Flatten(pairs)) + multiset{pv1, pv2};
  }

  /** Making a pair keeps the invariant, whatever list `o2` the two
      removals leave, as long as it is a subsequence of the live list
      holding everything but the pair. */
  lemma PairStep(input: seq<Pv>, rest: seq<Pv>, others: seq<Pv>, o2: seq<Pv>, pairs: seq<(Pv, Pv)>, pairOf: PairFn)
    requires LoopInv(input, rest, others, pairs, pairOf)
    requires |rest| > 0 && rest[0] != pairOf(rest[0])
    requires multiset(o2) + multiset{rest[0], pairOf(rest[0])} == multiset(others)
    requires IsSubseq(o2, others)
    ensures LoopInv(input, rest[1..], o2, pairs + [(rest[0], pairOf(rest[0]))], pairOf)
  {
    var pv1, pv2 := rest[0], pairOf(rest[0]);
    var pairs' := pairs + [(pv1, pv2)];
    PairStepFirsts(pairs, rest, pv2);
    UnpairedStep(rest, others, o2, pv2, pairOf);
    SubseqTrans(o2, others, input);
    BalanceStep(input, others, o2, pairs, pv1, pv2);
    assert ValidPairs(pairs', pairOf);
    assert IsSubseq(Firsts(pairs') + rest[1..], input);
  }

  /** Skipping a snapshot element keeps the invariant. */
  lemma SkipStep(input: seq<Pv>, rest: seq<Pv>, others: seq<Pv>, pairs: seq<(Pv, Pv)>, pairOf: PairFn)
    requires LoopInv(input, rest, others, pairs, pairOf)
    requires |rest| > 0 && !(rest[0] != pairOf(rest[0]) && pairOf(rest[0]) in others)
    ensures LoopInv(input, rest[1..], others, pairs, pairOf)
  {
    var f := Firsts(pairs);
    SubseqDeleteAt(f + rest, |f|);
    assert (f + rest)[..|f|] + (f + rest)[|f| + 1..] == f + rest[1..];
    SubseqTrans(f + rest[1..], f + rest, input);
    assert rest == [rest[0]] + rest[1..];
  }

  /** Every successful run of the loop from an invariant state ends in a
      grouping that keeps the promises of `GroupingOk`. */
  lemma {:induction false} GroupLoopSound(input: seq<Pv>, rest: seq<Pv>, others: seq<Pv>, pairs: seq<(Pv, Pv)>, pairOf: PairFn)
    requires LoopInv(input, rest, others, pairs, pairOf)
    ensures GroupLoop(rest, others, pairs, pairOf).Success? ==>
            GroupingOk(input, GroupLoop(rest, others, pairs, pairOf).value, pairOf)
    decreases |rest|
  {
    if |rest| == 0 {
      assert forall x :: multiset(rest)[x] == 0;
      assert Firsts(pairs) + rest == Firsts(pairs);
    } else {
      var pv1, pv2 := rest[0], pairOf(rest[0]);
      if pv1 != pv2 && pv2 in others {
        if pv1 in others {
          RemoveTwo(others, pv1, pv2);
          var o2 := RemoveFirst(RemoveFirst(others, pv1), pv2);
          PairStep(input, rest, others, o2, pairs, pairOf);
          GroupLoopSound(input, rest[1..], o2, pairs + [(pv1, pv2)], pairOf);
        }
      } else {
        SkipStep(input, rest, others, pairs, pairOf);
        GroupLoopSound(input, rest[1..], others, pairs, pairOf);
      }
    }
  }

  /** No PV is listed twice. */
  predicate Distinct(s: seq<Pv>)
  {
    forall i, j :: 0 <= i < j < |s| ==> s[i] != s[j]
  }

  /** `x` comes before `y` in `input`. */
  ghost predicate Before(input: seq<Pv>, x: Pv, y: Pv)
  {
    exists i, j :: 0 <= i < j < |input| && input[i] == x && input[j] == y
  }

  /** `x` went into a pair whose first PV comes before `s`. */
  ghost predicate TakenBefore(input: seq<Pv>, pairs: seq<(Pv, Pv)>, x: Pv, s: Pv)
  {
    exists k :: 0 <= k < |pairs| && (pairs[k].0 == x || pairs[k].1 == x) && Before(input, pairs[k].0, s)
  }

  /** `s` went into a pair as the partner of a PV that comes after it. */
  ghost predicate SecondBefore(input: seq<Pv>, pairs: seq<(Pv, Pv)>, s: Pv)
  {
    exists k :: 0 <= k < |pairs| && pairs[k].1 == s && Before(input, s, pairs[k].0)
  }

  /** The first match wins: a PV that was still listed when the walk
      reached it, but did not start a pair there (it was left single, or
      was taken later as the partner of a later PV), although its own
      partner is in the input, lost that partner to a pair made earlier in
      the walk. This also fixes which PV of a pair comes first. */
  ghost predicate FirstMatchWins(input: seq<Pv>, g: Grouping, pairOf: PairFn)
  {
    forall s :: (s in g.singles || SecondBefore(input, g.pairs, s)) && pairOf(s) != s && pairOf(s) in input ==>
      TakenBefore(input, g.pairs, pairOf(s), s)
  }

  /** The greedy part of the loop invariant, `n` PVs into the walk: every
      pair starts at a visited PV, and every visited PV still listed, or
      taken as the partner of a later PV, with a distinct partner in the
      input lost that partner to an earlier pair. */
  ghost predicate GreedyInv(input: seq<Pv>, n: nat, others: seq<Pv>, pairs: seq<(Pv, Pv)>, pairOf: PairFn)
  {
    && n <= |input|
    && (forall k :: 0 <= k < |pairs| ==> pairs[k].0 in input[..n])
    && (forall i :: 0 <= i < n && (input[i] in others || SecondBefore(input, pairs, input[i])) &&
                    pairOf(input[i]) != input[i] && pairOf(input[i]) in input ==>
          TakenBefore(input, pairs, pairOf(input[i]), input[i]))
  }

  /** In a list without duplicates, the PV being visited does not come
      before an already visited one. */
  lemma NotBeforeVisited(input: seq<Pv>, n: nat, y: Pv)
    requires Distinct(input) && n < |input| && y in input[..n]
    ensures !Before(input, input[n], y)
  {
    var before := input[..n];
    var m :| 0 <= m < |before| && before[m] == y;
    assert input[m] == y;
    assert forall j :: 0 <= j < |input| && input[j] == y ==> j == m;
    assert forall i :: 0 <= i < |input| && input[i] == input[n] ==> i == n;
  }

  /** The PV being visited is not the partner of a later PV among the pairs
      so far, whose first PVs are all visited. */
  lemma NotSecondBefore(input: seq<Pv>, n: nat, pairs: seq<(Pv, Pv)>)
    requires Distinct(input) && n < |input|
    requires forall k :: 0 <= k < |pairs| ==> pairs[k].0 in input[..n]
    ensures !SecondBefore(input, pairs, input[n])
  {
    forall k | 0 <= k < |pairs|
      ensures pairs[k].1 == input[n] ==> !Before(input, input[n], pairs[k].0)
    {
      NotBeforeVisited(input, n, pairs[k].0);
    }
  }

  /** A PV of a duplicate-free list is listed once. */
  lemma {:induction false} DistinctOnce(s: seq<Pv>, x: Pv)
    requires Distinct(s)
    ensures multiset(s)[x] <= 1
    decreases |s|
  {
    if |s| > 0 {
      var t := s[1..];
      assert s == [s[0]] + t;
      assert forall i :: 0 <= i < |t| ==> t[i] == s[i + 1];
      DistinctOnce(t, x);
      if x == s[0] {
        assert x !in t;
      }
    }
  }

  /** A PV among the pairs' PVs is in one of the pairs. */
  lemma {:induction false} FlattenHas(pairs: seq<(Pv, Pv)>, x: Pv)
    requires x in Flatten(pairs)
    ensures exists k :: 0 <= k < |pairs| && (pairs[k].0 == x || pairs[k].1 == x)
    decreases |pairs|
  {
    var init := pairs[..|pairs| - 1];
    if x != pairs[|pairs| - 1].0 && x != pairs[|pairs| - 1].1 {
      FlattenHas(init, x);
      var k :| 0 <= k < |init| && (init[k].0 == x || init[k].1 == x);
      assert init[k] == pairs[k];
    }
  }

  /** A PV that lost its partner to a pair still has, once another pair
      is appended. */
  lemma TakenSnoc(input: seq<Pv>, pairs: seq<(Pv, Pv)>, p: (Pv, Pv), x: Pv, s: Pv)
    requires TakenBefore(input, pairs, x, s)
    ensures TakenBefore(input, pairs + [p], x, s)
  {
    var k :| 0 <= k < |pairs| && (pairs[k].0 == x || pairs[k].1 == x) && Before(input, pairs[k].0, s);
    assert (pairs + [p])[k] == pairs[k];
  }

  /** The partner of a later PV, once a pair is appended, was one already
      or is the partner in the new pair. */
  lemma SecondSnoc(input: seq<Pv>, pairs: seq<(Pv, Pv)>, p: (Pv, Pv), s: Pv)
    requires SecondBefore(input, pairs + [p], s)
    ensures SecondBefore(input, pairs, s) || s == p.1
  {
    var k :| 0 <= k < |pairs + [p]| && (pairs + [p])[k].1 == s && Before(input, s, (pairs + [p])[k].0);
    if k < |pairs| {
      assert (pairs + [p])[k] == pairs[k];
    }
  }

  /** Pairing the `n`-th PV keeps the greedy invariant. */
  lemma GreedyPairStep(input: seq<Pv>, n: nat, others: seq<Pv>, o2: seq<Pv>, pairs: seq<(Pv, Pv)>, pairOf: PairFn)
    requires Distinct(input) && n < |input| && input[n] != pairOf(input[n])
    requires GreedyInv(input, n, others, pairs, pairOf)
    requires multiset(others) <= multiset(input)
    requires multiset(o2) + multiset{input[n], pairOf(input[n])} == multiset(others)
    ensures GreedyInv(input, n + 1, o2, pairs + [(input[n], pairOf(input[n]))], pairOf)
  {
    var p := (input[n], pairOf(input[n]));
    var pairs' := pairs + [p];
    assert input[..n + 1] == input[..n] + [input[n]];
    forall k | 0 <= k < |pairs'|
      ensures pairs'[k].0 in input[..n + 1]
    {
      if k < |pairs| {
        assert pairs'[k] == pairs[k];
      }
    }
    DistinctOnce(input, input[n]);
    assert multiset(o2)[input[n]] == 0;
    assert p.1 in others by {
      assert multiset(others)[p.1] > 0;
    }
    forall k | 0 <= k < |pairs'|
      ensures pairs'[k].1 == input[n] ==> !Before(input, input[n], pairs'[k].0)
    {
      if k < |pairs| {
        assert pairs'[k] == pairs[k];
        NotBeforeVisited(input, n, pairs[k].0);
      } else {
        assert forall i :: 0 <= i < |input| && input[i] == input[n] ==> i == n;
      }
    }
    assert !SecondBefore(input, pairs', input[n]);
    forall i | 0 <= i < n + 1 && (input[i] in o2 || SecondBefore(input, pairs', input[i])) &&
               pairOf(input[i]) != input[i] && pairOf(input[i]) in input
      ensures TakenBefore(input, pairs', pairOf(input[i]), input[i])
    {
      assert i < n;
      if input[i] in o2 {
        assert multiset(o2)[input[i]] <= multiset(others)[input[i]];
      } else {
        SecondSnoc(input, pairs, p, input[i]);
      }
      TakenSnoc(input, pairs, p, pairOf(input[i]), input[i]);
    }
  }

  /** Visiting the `n`-th PV without pairing it keeps the greedy
      invariant. */
  lemma GreedySkipStep(input: seq<Pv>, n: nat, others: seq<Pv>, pairs: seq<(Pv, Pv)>, pairOf: PairFn)
    requires Distinct(input) && n < |input|
    requires GreedyInv(input, n, others, pairs, pairOf)
    requires multiset(others) + multiset(Flatten(pairs)) == multiset(input)
    requires !(input[n] != pairOf(input[n]) && pairOf(input[n]) in others)
    ensures GreedyInv(input, n + 1, others, pairs, pairOf)
  {
    assert input[..n + 1] == input[..n] + [input[n]];
    NotSecondBefore(input, n, pairs);
    if input[n] in others && pairOf(input[n]) != input[n] && pairOf(input[n]) in input {
      var x := pairOf(input[n]);
      assert multiset(input)[x] > 0 && multiset(others)[x] == 0;
      FlattenHas(pairs, x);
      var k :| 0 <= k < |pairs| && (pairs[k].0 == x || pairs[k].1 == x);
      PartnerTaken(input, n, pairs, k, x);
    }
  }

  /** A partner the `n`-th PV did not find in the live list had already
      been paired, by a pair starting at a visited PV. */
  lemma PartnerTaken(input: seq<Pv>, n: nat, pairs: seq<(Pv, Pv)>, k: nat, x: Pv)
    requires n < |input| && k < |pairs| && (pairs[k].0 == x || pairs[k].1 == x)
    requires pairs[k].0 in input[..n]
    ensures TakenBefore(input, pairs, x, input[n])
  {
    var before := input[..n];
    var i :| 0 <= i < |before| && before[i] == pairs[k].0;
    assert input[i] == pairs[k].0;
    BeforeAt(input, i, n);
    TakenAt(input, pairs, k, x, input[n]);
  }

  lemma BeforeAt(input: seq<Pv>, i: nat, j: nat)
    requires i < j < |input|
    ensures Before(input, input[i], input[j])
  {
  }

  lemma TakenAt(input: seq<Pv>, pairs: seq<(Pv, Pv)>, k: nat, x: Pv, s: Pv)
    requires k < |pairs| && (pairs[k].0 == x || pairs[k].1 == x) && Before(input, pairs[k].0, s)
    ensures TakenBefore(input, pairs, x, s)
  {
  }

  /** At the end of the walk the greedy invariant is the first-match rule. */
  lemma GreedyEnd(input: seq<Pv>, others: seq<Pv>, pairs: seq<(Pv, Pv)>, pairOf: PairFn)
    requires GreedyInv(input, |input|, others, pairs, pairOf)
    requires multiset(others) <= multiset(input)
    ensures FirstMatchWins(input, Grouping(others, pairs), pairOf)
  {
    forall s | (s in others || SecondBefore(input, pairs, s)) && pairOf(s) != s && pairOf(s) in input
      ensures TakenBefore(input, pairs, pairOf(s), s)
    {
      if s in others {
        assert multiset(others)[s] <= multiset(input)[s];
      } else {
        var k :| 0 <= k < |pairs| && pairs[k].1 == s && Before(input, s, pairs[k].0);
      }
      var i :| 0 <= i < |input| && input[i] == s;
    }
  }

  /** Every successful run of the loop from a greedy state, over a list
      with no duplicates, lets the first match win. */
  lemma {:induction false} GroupLoopGreedy(input: seq<Pv>, n: nat, others: seq<Pv>, pairs: seq<(Pv, Pv)>, pairOf: PairFn)
    requires Distinct(input) && n <= |input|
    requires LoopInv(input, input[n..], others, pairs, pairOf)
    requires GreedyInv(input, n, others, pairs, pairOf)
    ensures GroupLoop(input[n..], others, pairs, pairOf).Success? ==>
            FirstMatchWins(input, GroupLoop(input[n..], others, pairs, pairOf).value, pairOf)
    decreases |input| - n
  {
    var rest := input[n..];
    if n == |input| {
      GreedyEnd(input, others, pairs, pairOf);
    } else {
      assert rest[0] == input[n] && rest[1..] == input[n + 1..];
      var pv1, pv2 := input[n], pairOf(input[n]);
      if pv1 != pv2 && pv2 in others {
        if pv1 in others {
          RemoveTwo(others, pv1, pv2);
          var o2 := RemoveFirst(RemoveFirst(others, pv1), pv2);
          PairStep(input, rest, others, o2, pairs, pairOf);
          GreedyPairStep(input, n, others, o2, pairs, pairOf);
          GroupLoopGreedy(input, n + 1, o2, pairs + [(pv1, pv2)], pairOf);
        }
      } else {
        SkipStep(input, rest, others, pairs, pairOf);
        GreedySkipStep(input, n, others, pairs, pairOf);
        GroupLoopGreedy(input, n + 1, others, pairs, pairOf);
      }
    }
  }

  /** The loop run by `GroupPvs`, from the whole list with no pairs,
      keeps the promises of `GroupingOk`, and lets the first match win on
      a list with no duplicates. */
  lemma GroupStart(pvs: seq<Pv>, pairOf: PairFn)
    ensures GroupLoop(pvs, pvs, [], pairOf).Success? ==>
            GroupingOk(pvs, GroupLoop(pvs, pvs, [], pairOf).value, pairOf)
    ensures Distinct(pvs) && GroupLoop(pvs, pvs, [], pairOf).Success? ==>
            FirstMatchWins(pvs, GroupLoop(pvs, pvs, [], pairOf).value, pairOf)
  {
    SubseqRefl(pvs);
    assert Firsts([]) + pvs == pvs;
    GroupLoopSound(pvs, pvs, pvs, [], pairOf);
    if Distinct(pvs) {
      assert pvs[0..] == pvs;
      GroupLoopGreedy(pvs, 0, pvs, [], pairOf);
    }
  }

  /** Two PVs with the same partner: `a` comes first and takes `c`, so
      `b` stays single. */
  lemma FirstMatchExample()
    ensures GroupPvs(["a", "b", "c"], x => if x == "a" || x == "b" then "c" else x)
         == Success(Grouping(["b"], [("a", "c")]))
  {
    FirstMatchLoop();
  }

  /** The walk of the example: `a` takes `c`, then the rest of the walk
      leaves `b` single. */
  lemma FirstMatchLoop()
    ensures GroupLoop(["a", "b", "c"], ["a", "b", "c"], [], x => if x == "a" || x == "b" then "c" else x)
         == Success(Grouping(["b"], [("a", "c")]))
  {
    var pairOf: PairFn := x => if x == "a" || x == "b" then "c" else x;
    var pvs: seq<Pv> := ["a", "b", "c"];
    var none: seq<(Pv, Pv)> := [];
    assert pvs[1..] == ["b", "c"];
    assert none + [("a", "c")] == [("a", "c")];
    assert pairOf("a") == "c";
    assert RemoveFirst(pvs, "a") == ["b", "c"];
    assert RemoveFirst(["b", "c"], "c") == ["b"];
    GroupLoopPairs(pvs, pvs, none, pairOf);
    FirstMatchRest();
  }

  /** The partner `c` of `b` is gone, and `c` is its own partner. */
  lemma FirstMatchRest()
    ensures GroupLoop(["b", "c"], ["b"], [("a", "c")], x => if x == "a" || x == "b" then "c" else x)
         == Success(Grouping(["b"], [("a", "c")]))
  {
    var pairOf: PairFn := x => if x == "a" || x == "b" then "c" else x;
    var pairs := [("a", "c")];
    assert pairOf("b") == "c" && pairOf("c") == "c";
    assert GroupLoop(["c"], ["b"], pairs, pairOf) == GroupLoop([], ["b"], pairs, pairOf);
    assert ["b", "c"][1..] == ["c"];
  }

  /** Two PVs that are each other's partner form one pair, in input order:
      the first PV visited opens the pair, and the second finds its partner
      gone. */
  lemma MutualPairExample()
    ensures GroupPvs(["a", "b"], x => if x == "a" then "b" else if x == "b" then "a" else x)
         == Success(Grouping([], [("a", "b")]))
  {
    var pairOf: PairFn := x => if x == "a" then "b" else if x == "b" then "a" else x;
    var pvs: seq<Pv> := ["a", "b"];
    var none: seq<(Pv, Pv)> := [];
    var empty: seq<Pv> := [];
    assert pvs[1..] == ["b"];
    assert none + [("a", "b")] == [("a", "b")];
    assert pairOf("a") == "b" && pairOf("b") == "a";
    assert RemoveFirst(pvs, "a") == ["b"];
    assert RemoveFirst(["b"], "b") == empty;
    GroupLoopPairs(pvs, pvs, none, pairOf);
    assert GroupLoop(["b"], empty, [("a", "b")], pairOf) == GroupLoop(["b"][1..], empty, [("a", "b")], pairOf);
  }

  /** The same two PVs paired the other way round break the first-match
      rule: `a` was visited first, so `a` opens the pair. */
  lemma SwappedPairRejected()
    ensures !FirstMatchWins(["a", "b"], Grouping([], [("b", "a")]),
                            x => if x == "a" then "b" else if x == "b" then "a" else x)
  {
    var input: seq<Pv> := ["a", "b"];
    var pairs: seq<(Pv, Pv)> := [("b", "a")];
    BeforeAt(input, 0, 1);
    assert input[0] == "a" && input[1] == "b" && pairs[0].0 == "b" && pairs[0].1 == "a";
    assert SecondBefore(input, pairs, "a");
    assert !Before(input, "b", "a");
    assert !TakenBefore(input, pairs, "b", "a");
  }

  /** When no PV still to visit has a distinct partner left in the list,
      the loop makes no pair. */
  lemma {:induction false} NoPairsLeft(rest: seq<Pv>, others: seq<Pv>, pairs: seq<(Pv, Pv)>, pairOf: PairFn)
    requires forall x :: x in rest ==> pairOf(x) == x || pairOf(x) !in others
    ensures GroupLoop(rest, others, pairs, pairOf) == Success(Grouping(others, pairs))
    decreases |rest|
  {
    if |rest| > 0 {
      assert rest[0] in rest;
      assert forall x :: x in rest[1..] ==> x in rest;
      NoPairsLeft(rest[1..], others, pairs, pairOf);
    }
  }

  /** Re-grouping the singles of a successful grouping makes no new pair. */
  lemma GroupingIdempotent(pvs: seq<Pv>, pairOf: PairFn)
    requires GroupPvs(pvs, pairOf).Success?
    ensures var singles := GroupPvs(pvs, pairOf).value.singles;
            GroupPvs(singles, pairOf) == Success(Grouping(singles, []))
  {
    NoPairsLeft(GroupPvs(pvs, pairOf).value.singles, GroupPvs(pvs, pairOf).value.singles, [], pairOf);
  }

  /** No PV of the list is both the partner of a listed PV and the first
      of a pair whose partner is listed. */
  ghost predicate NoChains(pvs: seq<Pv>, pairOf: PairFn)
  {
    forall i, j :: 0 <= i < |pvs| && 0 <= j < |pvs| && pvs[i] != pvs[j] && pairOf(pvs[i]) == pvs[j] ==>
      pairOf(pvs[j]) == pvs[j] || pairOf(pvs[j]) !in pvs
  }

  /** Every PV with a distinct partner in the input still has as many
      copies listed as are left to visit. */
  ghost predicate SourcesListed(input: seq<Pv>, rest: seq<Pv>, others: seq<Pv>, pairOf: PairFn)
  {
    forall x :: pairOf(x) != x && pairOf(x) in input ==> multiset(rest)[x] <= multiset(others)[x]
  }

  /** Pairing `rest[0]` with a partner that has no listed partner of its
      own keeps every source listed. */
  lemma SourcesPairStep(input: seq<Pv>, rest: seq<Pv>, others: seq<Pv>, o2: seq<Pv>, pairOf: PairFn)
    requires |rest| > 0 && rest[0] != pairOf(rest[0])
    requires pairOf(pairOf(rest[0])) == pairOf(rest[0]) || pairOf(pairOf(rest[0])) !in input
    requires multiset(o2) + multiset{rest[0], pairOf(rest[0])} == multiset(others)
    requires SourcesListed(input, rest, others, pairOf)
    ensures SourcesListed(input, rest[1..], o2, pairOf)
  {
    var pv1, pv2 := rest[0], pairOf(rest[0]);
    assert multiset(rest) == multiset{pv1} + multiset(rest[1..]) by {
      assert rest == [pv1] + rest[1..];
    }
    forall x | pairOf(x) != x && pairOf(x) in input
      ensures multiset(rest[1..])[x] <= multiset(o2)[x]
    {
      assert multiset(rest)[x] <= multiset(others)[x];
    }
  }

  /** Visiting `rest[0]` without pairing it keeps every source listed. */
  lemma SourcesSkipStep(input: seq<Pv>, rest: seq<Pv>, others: seq<Pv>, pairOf: PairFn)
    requires |rest| > 0
    requires SourcesListed(input, rest, others, pairOf)
    ensures SourcesListed(input, rest[1..], others, pairOf)
  {
    assert multiset(rest) == multiset{rest[0]} + multiset(rest[1..]) by {
      assert rest == [rest[0]] + rest[1..];
    }
  }

  /** One pairing iteration of the loop, unfolded. */
  lemma GroupLoopPairs(rest: seq<Pv>, others: seq<Pv>, pairs: seq<(Pv, Pv)>, pairOf: PairFn)
    requires |rest| > 0 && rest[0] != pairOf(rest[0]) && pairOf(rest[0]) in others && rest[0] in others
    requires pairOf(rest[0]) in RemoveFirst(others, rest[0])
    ensures GroupLoop(rest, others, pairs, pairOf)
         == GroupLoop(rest[1..], RemoveFirst(RemoveFirst(others, rest[0]), pairOf(rest[0])),
                      pairs + [(rest[0], pairOf(rest[0]))], pairOf)
  {
  }

  /** What the loop keeps true when the input has no chains: the
      snapshot is drawn from the input, the live list stays within it, and
      every source is still listed. */
  ghost predicate SuccessInv(input: seq<Pv>, rest: seq<Pv>, others: seq<Pv>, pairOf: PairFn)
  {
    && (forall k :: 0 <= k < |rest| ==> rest[k] in input)
    && multiset(others) <= multiset(input)
    && SourcesListed(input, rest, others, pairOf)
  }

  /** A pairing iteration of a chain-free input finds its PV listed and
      keeps `SuccessInv`. */
  lemma SucceedPairStep(input: seq<Pv>, rest: seq<Pv>, others: seq<Pv>, pairOf: PairFn)
    requires NoChains(input, pairOf) && SuccessInv(input, rest, others, pairOf)
    requires |rest| > 0 && rest[0] != pairOf(rest[0]) && pairOf(rest[0]) in others
    ensures rest[0] in others && pairOf(rest[0]) in RemoveFirst(others, rest[0])
    ensures SuccessInv(input, rest[1..], RemoveFirst(RemoveFirst(others, rest[0]), pairOf(rest[0])), pairOf)
  {
    var pv1, pv2 := rest[0], pairOf(rest[0]);
    assert forall k :: 0 <= k < |rest[1..]| ==> rest[1..][k] == rest[k + 1];
    assert pv2 in input by {
      assert multiset(others)[pv2] <= multiset(input)[pv2];
    }
    assert pairOf(pv2) == pv2 || pairOf(pv2) !in input by {
      var i :| 0 <= i < |input| && input[i] == pv1;
      var j :| 0 <= j < |input| && input[j] == pv2;
    }
    assert pv1 in others by {
      assert rest == [pv1] + rest[1..];
      assert multiset(rest)[pv1] <= multiset(others)[pv1];
    }
    RemoveTwo(others, pv1, pv2);
    var o2 := RemoveFirst(RemoveFirst(others, pv1), pv2);
    SourcesPairStep(input, rest, others, o2, pairOf);
    assert multiset(o2) <= multiset(others);
  }

  lemma {:induction false} GroupLoopSucceeds(input: seq<Pv>, rest: seq<Pv>, others: seq<Pv>, pairs: seq<(Pv, Pv)>, pairOf: PairFn)
    requires NoChains(input, pairOf) && SuccessInv(input, rest, others, pairOf)
    ensures GroupLoop(rest, others, pairs, pairOf).Success?
    decreases |rest|
  {
    if |rest| > 0 {
      var pv1, pv2 := rest[0], pairOf(rest[0]);
      if pv1 != pv2 && pv2 in others {
        SucceedPairStep(input, rest, others, pairOf);
        GroupLoopPairs(rest, others, pairs, pairOf);
        GroupLoopSucceeds(input, rest[1..], RemoveFirst(RemoveFirst(others, pv1), pv2), pairs + [(pv1, pv2)], pairOf);
      } else {
        assert forall k :: 0 <= k < |rest[1..]| ==> rest[1..][k] == rest[k + 1];
        SourcesSkipStep(input, rest, others, pairOf);
        GroupLoopSucceeds(input, rest[1..], others, pairs, pairOf);
      }
    }
  }

  /** Without chained partners the grouping never raises. */
  lemma GroupingSucceeds(pvs: seq<Pv>, pairOf: PairFn)
    requires NoChains(pvs, pairOf)
    ensures GroupPvs(pvs, pairOf).Success?
  {
    GroupLoopSucceeds(pvs, pvs, pvs, [], pairOf);
  }

  /** A chain `a -> b -> c`: `a` takes `b` as partner, and when `b` is
      visited its own partner `c` is still listed but `b` is gone, so
      `others.remove(b)` raises. */
  lemma ChainedPartnerFails()
    ensures GroupPvs(["a", "b", "c"], x => if x == "a" then "b" else if x == "b" then "c" else x)
         == Failure(NotInList("b"))
  {
    ChainedLoop();
  }

  /** The walk of the chain: `a` takes `b`, then `b` is visited. */
  lemma ChainedLoop()
    ensures GroupLoop(["a", "b", "c"], ["a", "b", "c"], [], x => if x == "a" then "b" else if x == "b" then "c" else x)
         == Failure(NotInList("b"))
  {
    var pairOf: PairFn := x => if x == "a" then "b" else if x == "b" then "c" else x;
    var pvs: seq<Pv> := ["a", "b", "c"];
    var none: seq<(Pv, Pv)> := [];
    assert pvs[1..] == ["b", "c"];
    assert none + [("a", "b")] == [("a", "b")];
    assert pairOf("a") == "b";
    assert RemoveFirst(pvs, "a") == ["b", "c"];
    assert RemoveFirst(["b", "c"], "b") == ["c"];
    GroupLoopPairs(pvs, pvs, none, pairOf);
    ChainedRest();
  }

  /** `b` has the listed partner `c`, but `b` itself is gone. */
  lemma ChainedRest()
    ensures GroupLoop(["b", "c"], ["c"], [("a", "b")], x => if x == "a" then "b" else if x == "b" then "c" else x)
         == Failure(NotInList("b"))
  {
    var pairOf: PairFn := x => if x == "a" then "b" else if x == "b" then "c" else x;
    assert pairOf("b") == "c";
  }
}

=== FILE: layout.dfy ===
/** The layout step: `add_widget` stacks copies of template widgets down
    the display, and `make_display` places the optional title, then one
    widget per classified group in the chosen order. */
module Layout {
  import opened Results
  import opened Seqs
  import opened Strings
  import opened Classify
  import opened Sorting

  /** The keyword arguments a widget's text is formatted with. */
  type Fields = map<string, string>

  /** A template widget of the template display: its height, and the
      `%(key)s` placeholders its text holds. */
  datatype Template = Template(height: int, placeholders: set<string>)

  /** The templates read from the template display, by widget name. */
  type Catalog = map<string, Template>

  /** A placed copy of a template: where it went and what it was filled with. */
  datatype Widget = Widget(template: string, x: int, y: int, fields: Fields)

  /** What `add_widget` did: the widget it appended, if any, and the
      vertical position it returned for the next one. */
  datatype Placed = Placed(widget: Option<Widget>, next: int)

  /** The placed widgets in document order, and the position below them. */
  datatype Display = Display(widgets: seq<Widget>, bottom: int)

  /** The default `spacing` of `add_widget`. `make_display` passes no
      `spacing` of its own; only a shared field of that name would set it. */
  const Spacing: int := 5

  /** The template the title is drawn with. */
  const TitleTemplate: string := "title_group"

  /** `add_widget(x, y, parent, name, **fields)` with unit scale factors:
      an unknown template is skipped and leaves the position alone; a
      placeholder with no field raises `KeyError`; otherwise the copy goes
      at `(x, y)` and the next one goes below it. */
  function AddWidget(catalog: Catalog, x: int, y: int, name: string, spacing: int, fields: Fields): (r: Result<Placed>)
    ensures name !in catalog ==> r == Success(Placed(None, y))
    ensures name in catalog ==> (r.Success? <==> catalog[name].placeholders <= fields.Keys)
    ensures r.Failure? ==> r.error == MissingPlaceholder(name)
    ensures r.Success? && r.value.widget.Some? ==>
              && r.value.widget.value == Widget(name, x, y, fields)
              && r.value.next == y + spacing + catalog[name].height
  {
    if name !in catalog then Success(Placed(None, y))
    else if !(catalog[name].placeholders <= fields.Keys) then Failure(MissingPlaceholder(name))
    else Success(Placed(Some(Widget(name, x, y, fields)), y + spacing + catalog[name].height))
  }

  function Listed(w: Option<Widget>): (r: seq<Widget>)
    ensures |r| == if w.Some? then 1 else 0
  {
    if w.Some? then [w.value] else []
  }

  /** The dict `get_pv_info` returns. */
  function RowFields(p: PvInfo): Fields
  {
    map["readback_pv" := p.readbackPv, "setpoint_pv" := p.setpointPv, "desc" := p.desc,
        "desc_pv" := p.descPv, "template" := p.template]
  }

  /** `pv_info.update(info)`: the shared fields override the record's. */
  function Merged(p: PvInfo, info: Fields): (r: Fields)
    ensures "template" in r
  {
    RowFields(p) + info
  }

  /** A merged record has every shared field, and every record key the
      shared fields leave alone keeps the record's value. */
  lemma MergedFields(p: PvInfo, info: Fields)
    ensures forall k :: k in info ==> k in Merged(p, info) && Merged(p, info)[k] == info[k]
    ensures forall f: SortField :: FieldName(f) !in info ==>
              FieldName(f) in Merged(p, info) && Merged(p, info)[FieldName(f)] == Field(p, f)
  {
  }

  /** The records merged with the shared fields, in order. */
  function MergedAll(rows: seq<PvInfo>, info: Fields): (r: seq<Fields>)
    ensures |r| == |rows|
    ensures forall i :: 0 <= i < |rows| ==> r[i] == Merged(rows[i], info)
  {
    seq(|rows|, i requires 0 <= i < |rows| => Merged(rows[i], info))
  }

  /** One pass of the loop of `make_display`: the merged record drawn with
      the template it names. */
  function PlaceRow(catalog: Catalog, x: int, y: int, fields: Fields): (r: Result<Placed>)
    requires "template" in fields
    ensures r.Failure? <==> Unfillable(fields, catalog)
    ensures r.Failure? ==> r.error == MissingPlaceholder(fields["template"])
  {
    AddWidget(catalog, x, y, fields["template"], Spacing, fields)
  }

  /** Every merged record names a template. */
  predicate Named(recs: seq<Fields>)
  {
    forall i :: 0 <= i < |recs| ==> "template" in recs[i]
  }

  /** The loop of `make_display` over the merged records. */
  function PlaceRows(catalog: Catalog, x: int, y: int, recs: seq<Fields>): (r: Result<Display>)
    requires Named(recs)
    ensures r.Failure? ==> r.error.MissingPlaceholder?
    ensures r.Success? ==> |r.value.widgets| == |Placeable(recs, catalog)|
    decreases |recs|
  {
    if |recs| == 0 then Success(Display([], y))
    else
      var placed :- PlaceRow(catalog, x, y, recs[0]);
      var rest :- PlaceRows(catalog, x, placed.next, recs[1..]);
      Success(Display(Listed(placed.widget) + rest.widgets, rest.bottom))
  }

  /** A merged record whose template exists but needs a field the record
      lacks. */
  predicate Unfillable(fields: Fields, catalog: Catalog)
    requires "template" in fields
  {
    fields["template"] in catalog && !(catalog[fields["template"]].placeholders <= fields.Keys)
  }

  /** Widgets stacked from `top` down: each starts where the previous one
      ended plus the spacing, and `bottom` is where the next would go. */
  ghost predicate Stacked(ws: seq<Widget>, catalog: Catalog, top: int, bottom: int)
    decreases |ws|
  {
    if |ws| == 0 then bottom == top
    else && ws[0].template in catalog
         && ws[0].y == top
         && Stacked(ws[1..], catalog, top + Spacing + catalog[ws[0].template].height, bottom)
  }

  /** Every widget is a template of the catalog, at column `x`, with a field
      for every placeholder its template holds. */
  ghost predicate Filled(ws: seq<Widget>, catalog: Catalog, x: int)
  {
    forall i :: 0 <= i < |ws| ==>
      ws[i].template in catalog && ws[i].x == x && catalog[ws[i].template].placeholders <= ws[i].fields.Keys
  }

  /** The merged records whose template exists, in order. */
  function Placeable(recs: seq<Fields>, catalog: Catalog): (r: seq<Fields>)
    requires Named(recs)
    ensures |r| <= |recs|
    decreases |recs|
  {
    if |recs| == 0 then []
    else (if recs[0]["template"] in catalog then [recs[0]] else [])
         + Placeable(recs[1..], catalog)
  }

  lemma StackedCons(w: Widget, ws: seq<Widget>, catalog: Catalog, top: int, bottom: int)
    requires w.template in catalog && w.y == top
    requires Stacked(ws, catalog, top + Spacing + catalog[w.template].height, bottom)
    ensures Stacked([w] + ws, catalog, top, bottom)
  {
    assert ([w] + ws)[1..] == ws;
  }

  lemma FilledCons(w: Widget, ws: seq<Widget>, catalog: Catalog, x: int)
    requires w.template in catalog && w.x == x && catalog[w.template].placeholders <= w.fields.Keys
    requires Filled(ws, catalog, x)
    ensures Filled([w] + ws, catalog, x)
  {
    assert forall i :: 1 <= i < |[w] + ws| ==> ([w] + ws)[i] == ws[i - 1];
  }

  /** What the row loop promises: the widgets are stacked from `y`, each is
      a filled template at column `x`, and their fields are, in order, the
      merged records whose template exists. */
  lemma {:induction false} PlaceRowsSpec(catalog: Catalog, x: int, y: int, recs: seq<Fields>)
    requires Named(recs) && PlaceRows(catalog, x, y, recs).Success?
    ensures var d := PlaceRows(catalog, x, y, recs).value;
            && Stacked(d.widgets, catalog, y, d.bottom)
            && Filled(d.widgets, catalog, x)
            && |d.widgets| == |Placeable(recs, catalog)|
            && forall i :: 0 <= i < |d.widgets| ==> d.widgets[i].fields == Placeable(recs, catalog)[i]
    decreases |recs|
  {
    if |recs| > 0 {
      var placed := PlaceRow(catalog, x, y, recs[0]).value;
      var rest := PlaceRows(catalog, x, placed.next, recs[1..]).value;
      PlaceRowsSpec(catalog, x, placed.next, recs[1..]);
      var d := PlaceRows(catalog, x, y, recs).value;
      var tailRecs := Placeable(recs[1..], catalog);
      if recs[0]["template"] in catalog {
        var w := placed.widget.value;
        assert d.widgets == [w] + rest.widgets;
        StackedCons(w, rest.widgets, catalog, y, d.bottom);
        FilledCons(w, rest.widgets, catalog, x);
        assert Placeable(recs, catalog) == [recs[0]] + tailRecs;
        assert forall i :: 1 <= i < |d.widgets| ==> d.widgets[i] == rest.widgets[i - 1];
      } else {
        assert d.widgets == rest.widgets;
        assert Placeable(recs, catalog) == tailRecs;
      }
    }
  }

  /** The row loop fails exactly when some merged record's template exists
      but lacks a field for one of its placeholders, and then it reports
      the first such template. */
  lemma {:induction false} PlaceRowsFails(catalog: Catalog, x: int, y: int, recs: seq<Fields>)
    requires Named(recs)
    ensures PlaceRows(catalog, x, y, recs).Failure? <==>
            exists k :: 0 <= k < |recs| && Unfillable(recs[k], catalog)
    ensures PlaceRows(catalog, x, y, recs).Failure? ==>
            exists k :: 0 <= k < |recs| && Unfillable(recs[k], catalog)
              && PlaceRows(catalog, x, y, recs).error == MissingPlaceholder(recs[k]["template"])
              && forall j :: 0 <= j < k ==> !Unfillable(recs[j], catalog)
    decreases |recs|
  {
    if |recs| > 0 && !Unfillable(recs[0], catalog) {
      var placed := PlaceRow(catalog, x, y, recs[0]).value;
      var tail := PlaceRows(catalog, x, placed.next, recs[1..]);
      PlaceRowsFails(catalog, x, placed.next, recs[1..]);
      assert PlaceRows(catalog, x, y, recs).Failure? == tail.Failure?;
      assert forall k :: 1 <= k < |recs| ==> recs[k] == recs[1..][k - 1];
      if tail.Failure? {
        var k :| 0 <= k < |recs[1..]| && Unfillable(recs[1..][k], catalog)
            && tail.error == MissingPlaceholder(recs[1..][k]["template"])
            && forall j :: 0 <= j < k ==> !Unfillable(recs[1..][j], catalog);
        assert Unfillable(recs[k + 1], catalog);
      }
    }
  }

  /** The title step of `make_display`: without a title, or without the
      title template, nothing is placed and the cursor stays; the step
      raises exactly when the title template needs a field that neither the
      shared fields nor `title` give; otherwise the title widget goes at
      `(x, y)` with the shared fields and the title, and the cursor moves
      below it. */
  function TitleStep(catalog: Catalog, x: int, y: int, title: string, info: Fields): (r: Result<Placed>)
    ensures title == "" || TitleTemplate !in catalog ==> r == Success(Placed(None, y))
    ensures r.Failure? <==> title != "" && TitleTemplate in catalog
                            && !(catalog[TitleTemplate].placeholders <= info.Keys + {"title"})
    ensures r.Failure? ==> r.error == MissingPlaceholder(TitleTemplate)
    ensures r.Success? && title != "" && TitleTemplate in catalog ==>
              r.value == Placed(Some(Widget(TitleTemplate, x, y, info["title" := title])),
                                y + Spacing + catalog[TitleTemplate].height)
  {
    if title != "" then AddWidget(catalog, x, y, TitleTemplate, Spacing, info["title" := title])
    else Success(Placed(None, y))
  }

  /** `make_display(root, rows, x, y, title, sort, **info)`: the title
      widget when a title is given, then the sort key is chosen, then every
      record is placed in sorted order. Writing the macros into the
      display's `<macros>` element is not modelled. It raises only the
      `IndexError` of the key test, which needs an empty list, or the
      `KeyError` of a missing field; it adds at most one widget per record
      besides the title. */
  function MakeDisplay(catalog: Catalog, rows: seq<PvInfo>, x: int, y: int, title: string, sort: string, info: Fields): (r: Result<Display>)
    ensures r.Failure? ==> r.error == EmptyPvList || r.error.MissingPlaceholder?
    ensures r.Success? ==> |rows| > 0 || sort == "pv" || sort == "type"
    ensures r.Success? ==> |r.value.widgets| <= |rows| + 1
  {
    var top :- TitleStep(catalog, x, y, title, info);
    var key :- SortKeyFor(sort, rows);
    var ordered := if key.Some? then SortBy(rows, key.value) else rows;
    var body :- PlaceRows(catalog, x, top.next, MergedAll(ordered, info));
    Success(Display(Listed(top.widget) + body.widgets, body.bottom))
  }

  /** The records in the order `make_display` places them. */
  function Ordered(rows: seq<PvInfo>, sort: string): seq<PvInfo>
  {
    match SortKeyFor(sort, rows)
    case Success(Some(f)) => SortBy(rows, f)
    case _ => rows
  }

  /** `make_display` succeeds exactly when its three steps do, and its
      display is the title widget followed by the record widgets. */
  lemma DisplaySteps(catalog: Catalog, rows: seq<PvInfo>, x: int, y: int, title: string, sort: string, info: Fields)
    ensures var d := MakeDisplay(catalog, rows, x, y, title, sort, info);
            var top := TitleStep(catalog, x, y, title, info);
            var recs := MergedAll(Ordered(rows, sort), info);
            d.Success? <==> top.Success? && SortKeyFor(sort, rows).Success? && PlaceRows(catalog, x, top.value.next, recs).Success?
    ensures var d := MakeDisplay(catalog, rows, x, y, title, sort, info);
            var top := TitleStep(catalog, x, y, title, info);
            var recs := MergedAll(Ordered(rows, sort), info);
            d.Success? ==>
              d.value == Display(Listed(top.value.widget) + PlaceRows(catalog, x, top.value.next, recs).value.widgets,
                                 PlaceRows(catalog, x, top.value.next, recs).value.bottom)
  {
  }

  /** Keeping records with a property keeps their order. */
  lemma {:induction false} PlaceableSubseq(recs: seq<Fields>, catalog: Catalog)
    requires Named(recs)
    ensures IsSubseq(Placeable(recs, catalog), recs)
    decreases |recs|
  {
    if |recs| == 0 {
      SubseqRefl(recs);
    } else {
      var rest := Placeable(recs[1..], catalog);
      PlaceableSubseq(recs[1..], catalog);
      assert recs == [recs[0]] + recs[1..];
      if recs[0]["template"] in catalog {
        assert Placeable(recs, catalog) == [recs[0]] + rest;
        SubseqCons(recs[0], rest, recs[1..]);
      } else {
        assert Placeable(recs, catalog) == rest;
        SubseqSkip(recs[0], rest, recs[1..]);
      }
    }
  }

  /** The merged records carry `name` and are ascending by it. */
  predicate AscendingBy(recs: seq<Fields>, name: string)
  {
    forall i, j :: 0 <= i < j < |recs| ==> InOrder(recs[i], recs[j], name)
  }

  /** Both records carry `name`, and the first value does not exceed the
      second. */
  predicate InOrder(r1: Fields, r2: Fields, name: string)
  {
    name in r1 && name in r2 && LexLe(r1[name], r2[name])
  }

  /** Records sorted by a key the shared fields do not override stay
      sorted by it once merged. */
  lemma MergedAscending(rows: seq<PvInfo>, info: Fields, f: SortField)
    requires SortedBy(rows, f) && FieldName(f) !in info
    ensures AscendingBy(MergedAll(rows, info), FieldName(f))
  {
    var recs := MergedAll(rows, info);
    forall i, j | 0 <= i < j < |recs|
      ensures InOrder(recs[i], recs[j], FieldName(f))
    {
      MergedFields(rows[i], info);
      MergedFields(rows[j], info);
    }
  }

  /** A subsequence of an ascending list is ascending. */
  lemma AscendingSubseq(a: seq<Fields>, b: seq<Fields>, name: string)
    requires IsSubseq(a, b) && AscendingBy(b, name)
    ensures AscendingBy(a, name)
  {
    var m :| Embeds(m, a, b);
    forall i, j | 0 <= i < j < |a|
      ensures InOrder(a[i], a[j], name)
    {
      assert a[i] == b[m[i]] && a[j] == b[m[j]] && m[i] < m[j];
    }
  }

  lemma {:induction false} StackedAppend(a: seq<Widget>, b: seq<Widget>, catalog: Catalog, top: int, mid: int, bottom: int)
    requires Stacked(a, catalog, top, mid) && Stacked(b, catalog, mid, bottom)
    ensures Stacked(a + b, catalog, top, bottom)
    decreases |a|
  {
    if |a| == 0 {
      assert a + b == b;
    } else {
      StackedAppend(a[1..], b, catalog, top + Spacing + catalog[a[0].template].height, mid, bottom);
      assert (a + b)[1..] == a[1..] + b;
    }
  }

  /** The title widget followed by the record widgets is stacked from the
      title's position and filled. */
  lemma TitleThenRows(catalog: Catalog, x: int, y: int, title: string, info: Fields, recs: seq<Fields>)
    requires Named(recs) && TitleStep(catalog, x, y, title, info).Success?
    requires PlaceRows(catalog, x, TitleStep(catalog, x, y, title, info).value.next, recs).Success?
    ensures var top := TitleStep(catalog, x, y, title, info).value;
            var body := PlaceRows(catalog, x, top.next, recs).value;
            Stacked(Listed(top.widget) + body.widgets, catalog, y, body.bottom)
            && Filled(Listed(top.widget) + body.widgets, catalog, x)
  {
    var top := TitleStep(catalog, x, y, title, info).value;
    var body := PlaceRows(catalog, x, top.next, recs).value;
    PlaceRowsSpec(catalog, x, top.next, recs);
    ListedThen(top.widget, body.widgets, catalog, x, y, top.next, body.bottom);
  }

  /** An optional widget at `(x, y)` followed by widgets stacked from
      below it. */
  lemma ListedThen(w: Option<Widget>, ws: seq<Widget>, catalog: Catalog, x: int, y: int, mid: int, bottom: int)
    requires w.None? ==> mid == y
    requires w.Some? ==> && w.value.template in catalog && w.value.x == x && w.value.y == y
                         && catalog[w.value.template].placeholders <= w.value.fields.Keys
                         && mid == y + Spacing + catalog[w.value.template].height
    requires Stacked(ws, catalog, mid, bottom) && Filled(ws, catalog, x)
    ensures Stacked(Listed(w) + ws, catalog, y, bottom) && Filled(Listed(w) + ws, catalog, x)
  {
    if w.Some? {
      StackedCons(w.value, ws, catalog, y, bottom);
      FilledCons(w.value, ws, catalog, x);
    } else {
      assert Listed(w) + ws == ws;
    }
  }

  /** The whole display is stacked from the starting position: the title
      first, then the records, each below the previous, each a filled
      template at column `x`. */
  lemma MakeDisplayStacked(catalog: Catalog, rows: seq<PvInfo>, x: int, y: int, title: string, sort: string, info: Fields)
    requires MakeDisplay(catalog, rows, x, y, title, sort, info).Success?
    ensures var d := MakeDisplay(catalog, rows, x, y, title, sort, info).value;
            Stacked(d.widgets, catalog, y, d.bottom) && Filled(d.widgets, catalog, x)
  {
    DisplaySteps(catalog, rows, x, y, title, sort, info);
    TitleThenRows(catalog, x, y, title, info, MergedAll(Ordered(rows, sort), info));
  }

  /** A non-empty title whose template exists is drawn first, at the
      starting position, with the shared fields and the title. */
  lemma TitleFirst(catalog: Catalog, rows: seq<PvInfo>, x: int, y: int, title: string, sort: string, info: Fields)
    requires title != "" && TitleTemplate in catalog
    requires MakeDisplay(catalog, rows, x, y, title, sort, info).Success?
    ensures var d := MakeDisplay(catalog, rows, x, y, title, sort, info).value;
            |d.widgets| > 0 && d.widgets[0] == Widget(TitleTemplate, x, y, info["title" := title])
  {
    DisplaySteps(catalog, rows, x, y, title, sort, info);
  }

  /** The record widgets, placed after `skip` leading widgets, are ascending
      when the merged records are. */
  lemma RowWidgetsAscending(catalog: Catalog, x: int, y: int, head: seq<Widget>, recs: seq<Fields>, name: string)
    requires Named(recs) && PlaceRows(catalog, x, y, recs).Success? && AscendingBy(recs, name)
    ensures var ws := head + PlaceRows(catalog, x, y, recs).value.widgets;
            forall i, j :: |head| <= i < j < |ws| ==> InOrder(ws[i].fields, ws[j].fields, name)
  {
    var body := PlaceRows(catalog, x, y, recs).value;
    var placeable := Placeable(recs, catalog);
    PlaceRowsSpec(catalog, x, y, recs);
    PlaceableSubseq(recs, catalog);
    AscendingSubseq(placeable, recs, name);
    var ws := head + body.widgets;
    forall i, j | |head| <= i < j < |ws|
      ensures InOrder(ws[i].fields, ws[j].fields, name)
    {
      assert ws[i] == body.widgets[i - |head|] && ws[j] == body.widgets[j - |head|];
    }
  }

  /** When the records are sorted by a key the shared fields do not
      override, the record widgets come out ascending by that key. */
  lemma RowsAscending(catalog: Catalog, rows: seq<PvInfo>, x: int, y: int, title: string, sort: string, info: Fields, f: SortField)
    requires MakeDisplay(catalog, rows, x, y, title, sort, info).Success?
    requires SortKeyFor(sort, rows) == Success(Some(f)) && FieldName(f) !in info
    ensures var top := if title != "" && TitleTemplate in catalog then 1 else 0;
            var ws := MakeDisplay(catalog, rows, x, y, title, sort, info).value.widgets;
            forall i, j :: top <= i < j < |ws| ==> InOrder(ws[i].fields, ws[j].fields, FieldName(f))
  {
    DisplaySteps(catalog, rows, x, y, title, sort, info);
    var top := TitleStep(catalog, x, y, title, info).value;
    var recs := MergedAll(Ordered(rows, sort), info);
    SortedMerged(rows, sort, info, f);
    TitleCount(catalog, x, y, title, info);
    RowWidgetsAscending(catalog, x, top.next, Listed(top.widget), recs, FieldName(f));
  }

  /** A title widget is placed exactly when a title is given and its
      template exists. */
  lemma TitleCount(catalog: Catalog, x: int, y: int, title: string, info: Fields)
    requires TitleStep(catalog, x, y, title, info).Success?
    ensures |Listed(TitleStep(catalog, x, y, title, info).value.widget)| ==
            if title != "" && TitleTemplate in catalog then 1 else 0
  {
  }

  /** The merged records in placing order are ascending by the sort key
      when the shared fields do not override it. */
  lemma SortedMerged(rows: seq<PvInfo>, sort: string, info: Fields, f: SortField)
    requires SortKeyFor(sort, rows) == Success(Some(f)) && FieldName(f) !in info
    ensures AscendingBy(MergedAll(Ordered(rows, sort), info), FieldName(f))
  {
    assert Ordered(rows, sort) == SortBy(rows, f);
    SortBySorted(rows, f);
    MergedAscending(SortBy(rows, f), info, f);
  }

  /** Sorting only reorders the records. */
  lemma OrderedMembers(rows: seq<PvInfo>, sort: string)
    ensures |Ordered(rows, sort)| == |rows|
    ensures forall p :: p in Ordered(rows, sort) <==> p in rows
  {
    match SortKeyFor(sort, rows)
    case Success(Some(f)) =>
      assert multiset(SortBy(rows, f)) == multiset(rows);
      forall p
        ensures p in Ordered(rows, sort) <==> p in rows
      {
        assert p in Ordered(rows, sort) <==> p in multiset(SortBy(rows, f));
      }
    case _ =>
  }

  /** A record whose template exists is kept by the filter. */
  lemma {:induction false} PlaceableKeeps(recs: seq<Fields>, catalog: Catalog, r: Fields)
    requires Named(recs) && r in recs && "template" in r && r["template"] in catalog
    ensures r in Placeable(recs, catalog)
    decreases |recs|
  {
    if recs[0] != r {
      assert recs == [recs[0]] + recs[1..];
      PlaceableKeeps(recs[1..], catalog, r);
    }
  }

  /** The row loop shows every record whose template exists. */
  lemma RowShown(catalog: Catalog, x: int, y: int, recs: seq<Fields>, r: Fields)
    requires Named(recs) && PlaceRows(catalog, x, y, recs).Success?
    requires r in recs && "template" in r && r["template"] in catalog
    ensures var ws := PlaceRows(catalog, x, y, recs).value.widgets;
            exists j :: 0 <= j < |ws| && ws[j].fields == r
  {
    PlaceRowsSpec(catalog, x, y, recs);
    PlaceableKeeps(recs, catalog, r);
    var placeable := Placeable(recs, catalog);
    var j :| 0 <= j < |placeable| && placeable[j] == r;
  }

  /** Some widget from position `top` on shows the record `r`. */
  ghost predicate ShownFrom(ws: seq<Widget>, top: int, r: Fields)
  {
    exists i :: 0 <= top <= i < |ws| && ws[i].fields == r
  }

  /** The record widgets, placed after `head`, show every record whose
      template exists. */
  lemma RowWidgetsShow(catalog: Catalog, x: int, y: int, head: seq<Widget>, recs: seq<Fields>)
    requires Named(recs) && PlaceRows(catalog, x, y, recs).Success?
    ensures var ws := head + PlaceRows(catalog, x, y, recs).value.widgets;
            forall r :: r in recs && r["template"] in catalog ==> ShownFrom(ws, |head|, r)
  {
    var body := PlaceRows(catalog, x, y, recs).value.widgets;
    var ws := head + body;
    forall r | r in recs && r["template"] in catalog
      ensures ShownFrom(ws, |head|, r)
    {
      RowShown(catalog, x, y, recs, r);
      var j :| 0 <= j < |body| && body[j].fields == r;
      assert ws[|head| + j] == body[j];
    }
  }

  /** Every record merged in placing order is among the merged records. */
  lemma MergedTo(ordered: seq<PvInfo>, rows: seq<PvInfo>, info: Fields)
    requires forall p :: p in rows ==> p in ordered
    ensures forall p :: p in rows ==> Merged(p, info) in MergedAll(ordered, info)
  {
    var recs := MergedAll(ordered, info);
    forall p | p in rows
      ensures Merged(p, info) in recs
    {
      var k :| 0 <= k < |ordered| && ordered[k] == p;
      assert recs[k] == Merged(p, info);
    }
  }

  /** Every record whose merged template exists is shown by a widget below
      the title: no classified group is lost on the way to the display. */
  lemma DisplayedAll(catalog: Catalog, rows: seq<PvInfo>, x: int, y: int, title: string, sort: string, info: Fields)
    requires MakeDisplay(catalog, rows, x, y, title, sort, info).Success?
    ensures var top := if title != "" && TitleTemplate in catalog then 1 else 0;
            var ws := MakeDisplay(catalog, rows, x, y, title, sort, info).value.widgets;
            forall p :: p in rows && Merged(p, info)["template"] in catalog ==> ShownFrom(ws, top, Merged(p, info))
  {
    DisplaySteps(catalog, rows, x, y, title, sort, info);
    TitleCount(catalog, x, y, title, info);
    var top := TitleStep(catalog, x, y, title, info).value;
    var recs := MergedAll(Ordered(rows, sort), info);
    RowWidgetsShow(catalog, x, top.next, Listed(top.widget), recs);
    OrderedMembers(rows, sort);
    MergedTo(Ordered(rows, sort), rows, info);
  }

  /** Every widget below the title shows one of the records, merged with
      the shared fields; there are no more of them than records. */
  lemma DisplayedRecords(catalog: Catalog, rows: seq<PvInfo>, x: int, y: int, title: string, sort: string, info: Fields)
    requires MakeDisplay(catalog, rows, x, y, title, sort, info).Success?
    ensures var top := if title != "" && TitleTemplate in catalog then 1 else 0;
            var ws := MakeDisplay(catalog, rows, x, y, title, sort, info).value.widgets;
            && top <= |ws| <= top + |rows|
            && forall i :: top <= i < |ws| ==> ShowsRecord(ws[i], rows, info)
  {
    DisplaySteps(catalog, rows, x, y, title, sort, info);
    TitleCount(catalog, x, y, title, info);
    var top := TitleStep(catalog, x, y, title, info).value;
    var recs := MergedAll(Ordered(rows, sort), info);
    RowWidgetsFrom(catalog, x, top.next, Listed(top.widget), recs);
    OrderedMembers(rows, sort);
    MergedFrom(Ordered(rows, sort), rows, info);
  }

  /** The widget's fields are one of the records merged with the shared
      fields. */
  ghost predicate ShowsRecord(w: Widget, rows: seq<PvInfo>, info: Fields)
  {
    exists p :: p in rows && w.fields == Merged(p, info)
  }

  /** The record widgets show merged records, at most one each. */
  lemma RowWidgetsFrom(catalog: Catalog, x: int, y: int, head: seq<Widget>, recs: seq<Fields>)
    requires Named(recs) && PlaceRows(catalog, x, y, recs).Success?
    ensures var ws := head + PlaceRows(catalog, x, y, recs).value.widgets;
            && |head| <= |ws| <= |head| + |recs|
            && forall i :: |head| <= i < |ws| ==> ws[i].fields in recs
  {
    var body := PlaceRows(catalog, x, y, recs).value;
    var placeable := Placeable(recs, catalog);
    PlaceRowsSpec(catalog, x, y, recs);
    PlaceableSubseq(recs, catalog);
    SubseqLength(placeable, recs);
    SubseqMembers(placeable, recs);
    var ws := head + body.widgets;
    forall i | |head| <= i < |ws|
      ensures ws[i].fields in recs
    {
      assert ws[i] == body.widgets[i - |head|];
      assert placeable[i - |head|] in placeable;
    }
  }

  /** Every merged record in placing order is one of the records merged. */
  lemma MergedFrom(ordered: seq<PvInfo>, rows: seq<PvInfo>, info: Fields)
    requires forall p :: p in ordered ==> p in rows
    ensures forall r :: r in MergedAll(ordered, info) ==> exists p :: p in rows && r == Merged(p, info)
  {
    var recs := MergedAll(ordered, info);
    forall r | r in recs
      ensures exists p :: p in rows && r == Merged(p, info)
    {
      var k :| 0 <= k < |recs| && recs[k] == r;
      assert ordered[k] in ordered;
    }
  }

  /** No template has a negative height. */
  predicate NonNegativeHeights(catalog: Catalog)
  {
    forall name :: name in catalog ==> catalog[name].height >= 0
  }

  /** Stacked widgets of non-negative heights go strictly downwards, each
      between the top and the final cursor. */
  lemma {:induction false} StackedDescends(ws: seq<Widget>, catalog: Catalog, top: int, bottom: int)
    requires NonNegativeHeights(catalog) && Stacked(ws, catalog, top, bottom)
    ensures top <= bottom
    ensures forall i :: 0 <= i < |ws| ==>
              ws[i].template in catalog && top <= ws[i].y && ws[i].y + Spacing + catalog[ws[i].template].height <= bottom
    ensures forall i, j :: 0 <= i < j < |ws| ==> ws[i].y < ws[j].y
    decreases |ws|
  {
    if |ws| > 0 {
      var next := top + Spacing + catalog[ws[0].template].height;
      StackedDescends(ws[1..], catalog, next, bottom);
      assert forall i :: 1 <= i < |ws| ==> ws[i] == ws[1..][i - 1];
    }
  }

  /** With non-negative heights the cursor never moves up: the display
      ends no higher than it started, and its widgets go strictly down. */
  lemma CursorMonotone(catalog: Catalog, rows: seq<PvInfo>, x: int, y: int, title: string, sort: string, info: Fields)
    requires NonNegativeHeights(catalog)
    requires MakeDisplay(catalog, rows, x, y, title, sort, info).Success?
    ensures var d := MakeDisplay(catalog, rows, x, y, title, sort, info).value;
            && y <= d.bottom
            && (forall i :: 0 <= i < |d.widgets| ==> y <= d.widgets[i].y < d.bottom)
            && (forall i, j :: 0 <= i < j < |d.widgets| ==> d.widgets[i].y < d.widgets[j].y)
  {
    var d := MakeDisplay(catalog, rows, x, y, title, sort, info).value;
    MakeDisplayStacked(catalog, rows, x, y, title, sort, info);
    StackedDescends(d.widgets, catalog, y, d.bottom);
  }

  /** An empty list of records cannot be displayed unless sorted by `pv`
      or `type`: the key test on the first record fails. */
  lemma EmptyDisplayFails(catalog: Catalog, x: int, y: int, title: string, sort: string, info: Fields)
    requires sort != "pv" && sort != "type"
    ensures MakeDisplay(catalog, [], x, y, title, sort, info).Failure?
  {
  }
}

=== FILE: macros.dfy ===
/** Macro tables and the two inverse rewritings of PV names:
    `sub_macros` turns literal values back into `$(NAME)` tokens, and
    `expand_macros` turns `$(NAME)` / `${NAME}` tokens into literal values.
    Also the `NAME=VALUE,NAME=VALUE` command-line parser. */
module Macros {
  import opened Results
  import opened Strings

  /** A process-variable name. */
  type Pv = string

  /** One macro: `name` stands for the literal text `value`. */
  datatype Macro = Macro(name: string, value: string)

  /** A macro table, listed in the iteration order of the source's dict. */
  type MacroTable = seq<Macro>

  /** The token `sub_macros` writes for a macro. */
  function Token(name: string): string
  {
    "$(" + name + ")"
  }

  /** `sub_macros`: for each macro in table order, replace every literal
      occurrence of its value with its token. */
  function SubMacros(text: string, macros: MacroTable): (r: string)
    ensures |macros| == 0 ==> r == text
    ensures |macros| == 1 ==> r == Replace(text, macros[0].value, Token(macros[0].name))
    decreases |macros|
  {
    if |macros| == 0 then text
    else SubMacros(Replace(text, macros[0].value, Token(macros[0].name)), macros[1..])
  }

  /** `s` starts with a token for `name`: a `$`, an opening `(` or `{`, the
      name, and a closing `)` or `}`. The two brackets need not agree. */
  predicate TokenAt(s: string, name: string)
  {
    && |s| >= |name| + 3
    && s[0] == '$'
    && (s[1] == '(' || s[1] == '{')
    && s[2..|name| + 2] == name
    && (s[|name| + 2] == ')' || s[|name| + 2] == '}')
  }

  /** A token for `name` starts somewhere in `s`. */
  predicate TokenIn(s: string, name: string)
    decreases |s|
  {
    |s| > 0 && (TokenAt(s, name) || TokenIn(s[1..], name))
  }

  /** One `re.sub` of the token pattern for `name` by `value`: tokens are
      replaced left to right, scanning resumes after each replaced token.
      A text holding no token for `name` is left unchanged. */
  function ExpandOne(s: string, name: string, value: string): (r: string)
    ensures !TokenIn(s, name) ==> r == s
    ensures '$' !in s ==> r == s
    ensures TokenIn(s, name) ==> Occurs(value, r)
    decreases |s|
  {
    if |s| == 0 then ""
    else if TokenAt(s, name) then
      var r := value + ExpandOne(s[|name| + 3..], name, value);
      OccursPrefix(value, ExpandOne(s[|name| + 3..], name, value));
      r
    else
      assert s == [s[0]] + s[1..];
      var tail := ExpandOne(s[1..], name, value);
      if TokenIn(s[1..], name) then OccursCons(value, s[0], tail); [s[0]] + tail
      else [s[0]] + tail
  }

  /** `expand_macros`: expand each macro's tokens, in table order. */
  function ExpandMacros(text: string, macros: MacroTable): (r: string)
    ensures |macros| == 0 ==> r == text
    ensures |macros| == 1 ==> r == ExpandOne(text, macros[0].name, macros[0].value)
    ensures '$' !in text ==> r == text
    decreases |macros|
  {
    if |macros| == 0 then text
    else ExpandMacros(ExpandOne(text, macros[0].name, macros[0].value), macros[1..])
  }

  /** Every bracket form the pattern `\$[({]NAME[)}]` matches is a token:
      `$(NAME)`, `${NAME}`, `$(NAME}` and `${NAME)`. */
  lemma TokenForms(name: string, open: char, close: char)
    requires (open == '(' || open == '{') && (close == ')' || close == '}')
    ensures |"$" + [open] + name + [close]| == |name| + 3
    ensures TokenAt("$" + [open] + name + [close], name)
  {
    var t := "$" + [open] + name + [close];
    assert t[2..|name| + 2] == name;
  }

  /** `Token(name)`, the form `sub_macros` writes, is a token. */
  lemma TokenIsToken(name: string)
    ensures |Token(name)| == |name| + 3 && TokenAt(Token(name), name)
  {
    TokenForms(name, '(', ')');
    assert Token(name) == "$" + ['('] + name + [')'];
  }

  /** A token of any bracket form, followed by anything, expands to the
      value followed by the expansion of the rest. */
  lemma TokenExpands(t: string, name: string, value: string, rest: string)
    requires |t| == |name| + 3 && TokenAt(t, name)
    ensures ExpandOne(t + rest, name, value) == value + ExpandOne(rest, name, value)
  {
    var s := t + rest;
    assert s[..|t|] == t;
    assert s[2..|name| + 2] == t[2..|name| + 2];
    assert TokenAt(s, name);
    assert s[|name| + 3..] == rest;
  }

  /** A token of any bracket form after text free of `$` expands in
      place: the text before it is kept, the token becomes the value, and
      the scan goes on after it. */
  lemma {:induction false} ExpandAfter(p: string, t: string, name: string, value: string, q: string)
    requires '$' !in p
    requires |t| == |name| + 3 && TokenAt(t, name)
    ensures ExpandOne(p + t + q, name, value) == p + value + ExpandOne(q, name, value)
    decreases |p|
  {
    if |p| == 0 {
      EmptyFront(p, t);
      EmptyFront(p, value);
      TokenExpands(t, name, value, q);
    } else {
      var rest := p[1..] + t + q;
      assert p + t + q == [p[0]] + rest;
      assert p[0] in p;
      ExpandSkips(p[0], rest, name, value);
      assert forall i :: 0 <= i < |p[1..]| ==> p[1..][i] == p[i + 1];
      ExpandAfter(p[1..], t, name, value, q);
      HeadThen(p, value, ExpandOne(q, name, value));
    }
  }

  /** Nothing in front changes nothing. */
  lemma EmptyFront(p: string, x: string)
    requires |p| == 0
    ensures p + x == x
  {
  }

  /** A character that does not start a token is kept and the scan moves
      on. */
  lemma ExpandSkips(c: char, rest: string, name: string, value: string)
    requires !TokenAt([c] + rest, name)
    ensures ExpandOne([c] + rest, name, value) == [c] + ExpandOne(rest, name, value)
  {
    assert ([c] + rest)[1..] == rest;
  }

  /** `sub_macros` over a table split in two is the first part's rewriting
      followed by the second's. */
  lemma {:induction false} SubMacrosAppend(text: string, a: MacroTable, b: MacroTable)
    ensures SubMacros(text, a + b) == SubMacros(SubMacros(text, a), b)
    decreases |a|
  {
    if |a| == 0 {
      assert a + b == b;
    } else {
      assert (a + b)[0] == a[0] && (a + b)[1..] == a[1..] + b;
      SubMacrosAppend(Replace(text, a[0].value, Token(a[0].name)), a[1..], b);
    }
  }

  /** `expand_macros` over a table split in two is the first part's
      expansion followed by the second's. */
  lemma {:induction false} ExpandMacrosAppend(text: string, a: MacroTable, b: MacroTable)
    ensures ExpandMacros(text, a + b) == ExpandMacros(ExpandMacros(text, a), b)
    decreases |a|
  {
    if |a| == 0 {
      assert a + b == b;
    } else {
      assert (a + b)[0] == a[0] && (a + b)[1..] == a[1..] + b;
      ExpandMacrosAppend(ExpandOne(text, a[0].name, a[0].value), a[1..], b);
    }
  }

  /** Expanding a macro undoes substituting it, for a name free of `$`
      and a non-empty value. */
  lemma {:induction false} ExpandUndoesReplace(s: string, name: string, value: string)
    requires |value| > 0 && '$' !in s
    ensures ExpandOne(ReplaceNonEmpty(s, value, Token(name)), name, value) == s
    decreases |s|
  {
    var tok := Token(name);
    if |s| < |value| {
    } else if s[..|value|] == value {
      var rest := ReplaceNonEmpty(s[|value|..], value, tok);
      ExpandUndoesReplace(s[|value|..], name, value);
      TokenIsToken(name);
      TokenExpands(Token(name), name, value, rest);
      assert s == s[..|value|] + s[|value|..];
    } else {
      var rest := ReplaceNonEmpty(s[1..], value, tok);
      ExpandUndoesReplace(s[1..], name, value);
      assert ([s[0]] + rest)[1..] == rest;
      assert s == [s[0]] + s[1..];
    }
  }

  /** The round trip of the two rewritings for one macro: a PV name with
      no `$` in it comes back unchanged. */
  lemma MacroRoundTrip(pv: string, m: Macro)
    requires |m.value| > 0 && '$' !in pv
    ensures ExpandMacros(SubMacros(pv, [m]), [m]) == pv
  {
    ExpandUndoesReplace(pv, m.name, m.value);
  }

  /** The module docstring's example, macro step only: with `DEV=ANC300:`
      and `AX=1`, `sub_macros` alone turns `ANC300:AX1:PV_IN` into
      `$(DEV)AX$(AX):PV_IN` (the docstring also applies a `--substitute`
      rule first, which leaves this name as it is after the macros), and
      expanding that gives the PV name back. */
  lemma DocstringExample()
    ensures SubMacros("ANC300:AX1:PV_IN", [Macro("DEV", "ANC300:"), Macro("AX", "1")])
         == "$(DEV)AX$(AX):PV_IN"
    ensures ExpandMacros("$(DEV)AX$(AX):PV_IN", [Macro("DEV", "ANC300:"), Macro("AX", "1")])
         == "ANC300:AX1:PV_IN"
  {
    var table := [Macro("DEV", "ANC300:"), Macro("AX", "1")];
    assert table[1..] == [Macro("AX", "1")];
    SubDevStep();
    SubAxStep();
    ExpandDevStep();
    ExpandAxStep();
  }

  /** `DEV` first: one occurrence of its value at the start, none after. */
  lemma SubDevStep()
    ensures Replace("ANC300:AX1:PV_IN", "ANC300:", Token("DEV")) == "$(DEV)AX1:PV_IN"
  {
    assert "" + "ANC300:" + "AX1:PV_IN" == "ANC300:AX1:PV_IN";
    assert "" + "$(DEV)" + "AX1:PV_IN" == "$(DEV)AX1:PV_IN";
    assert Token("DEV") == "$(DEV)";
    MissingChar("ANC300:", "" + "ANC300", ':');
    MissingChar("ANC300:", "AX1:PV_IN", '3');
    ReplaceOnce("", "ANC300:", "$(DEV)", "AX1:PV_IN");
  }

  /** Then `AX`: the one `1`, after `$(DEV)AX`. */
  lemma SubAxStep()
    ensures Replace("$(DEV)AX1:PV_IN", "1", Token("AX")) == "$(DEV)AX$(AX):PV_IN"
  {
    assert "$(DEV)AX" + "1" + ":PV_IN" == "$(DEV)AX1:PV_IN";
    assert "$(DEV)AX" + "$(AX)" + ":PV_IN" == "$(DEV)AX$(AX):PV_IN";
    assert Token("AX") == "$(AX)";
    MissingChar("1", "$(DEV)AX" + "", '1');
    MissingChar("1", ":PV_IN", '1');
    ReplaceOnce("$(DEV)AX", "1", "$(AX)", ":PV_IN");
  }

  /** Expanding `DEV`: the leading token, and no other. */
  lemma ExpandDevStep()
    ensures ExpandOne("$(DEV)AX$(AX):PV_IN", "DEV", "ANC300:") == "ANC300:AX$(AX):PV_IN"
  {
    assert "" + Token("DEV") + "AX$(AX):PV_IN" == "$(DEV)AX$(AX):PV_IN";
    assert "" + "ANC300:" + "AX$(AX):PV_IN" == "ANC300:AX$(AX):PV_IN";
    ExpandDevTail();
    TokenIsToken("DEV");
    ExpandAfter("", Token("DEV"), "DEV", "ANC300:", "AX$(AX):PV_IN");
  }

  /** The text after the `DEV` token is kept: it holds no token for
      `DEV`. */
  lemma ExpandDevTail()
    ensures ExpandOne("AX$(AX):PV_IN", "DEV", "ANC300:") == "AX$(AX):PV_IN"
  {
    assert ['A'] + "X$(AX):PV_IN" == "AX$(AX):PV_IN";
    assert ['X'] + "$(AX):PV_IN" == "X$(AX):PV_IN";
    ExpandKeepsAx();
    ExpandSkips('X', "$(AX):PV_IN", "DEV", "ANC300:");
    ExpandSkips('A', "X$(AX):PV_IN", "DEV", "ANC300:");
  }

  /** `$(AX)` is not a token for `DEV`, so it is kept. */
  lemma ExpandKeepsAx()
    ensures ExpandOne("$(AX):PV_IN", "DEV", "ANC300:") == "$(AX):PV_IN"
  {
    assert ['$'] + "(AX):PV_IN" == "$(AX):PV_IN";
    assert '$' !in "(AX):PV_IN";
    OtherName("$(AX):PV_IN", "DEV");
    ExpandSkips('$', "(AX):PV_IN", "DEV", "ANC300:");
  }

  /** A token whose name starts differently is not a token for `name`. */
  lemma OtherName(s: string, name: string)
    requires |s| > 2 && |name| > 0 && s[2] != name[0]
    ensures !TokenAt(s, name)
  {
    if |s| >= |name| + 3 {
      assert s[2..|name| + 2][0] == s[2];
    }
  }

  /** Expanding `AX`: the token after `ANC300:AX`. */
  lemma ExpandAxStep()
    ensures ExpandOne("ANC300:AX$(AX):PV_IN", "AX", "1") == "ANC300:AX1:PV_IN"
  {
    assert "ANC300:AX" + Token("AX") + ":PV_IN" == "ANC300:AX$(AX):PV_IN";
    assert "ANC300:AX" + "1" + ":PV_IN" == "ANC300:AX1:PV_IN";
    TokenIsToken("AX");
    ExpandAfter("ANC300:AX", Token("AX"), "AX", "1", ":PV_IN");
    assert '$' !in ":PV_IN";
  }

  /** The other bracket forms expand too: `${AX}` and the mixed `$(AX}`
      become the value. */
  lemma BracketFormsExpand()
    ensures ExpandOne("${AX}:PV", "AX", "1") == "1:PV"
    ensures ExpandOne("$(AX}:PV", "AX", "1") == "1:PV"
  {
    assert "" + ("$" + ['{'] + "AX" + ['}']) + ":PV" == "${AX}:PV";
    assert "" + ("$" + ['('] + "AX" + ['}']) + ":PV" == "$(AX}:PV";
    assert "" + "1" + ":PV" == "1:PV";
    assert '$' !in ":PV";
    TokenForms("AX", '{', '}');
    TokenForms("AX", '(', '}');
    ExpandAfter("", "$" + ['{'] + "AX" + ['}'], "AX", "1", ":PV");
    ExpandAfter("", "$" + ['('] + "AX" + ['}'], "AX", "1", ":PV");
  }

  /** The value bound to `name`, if any. */
  function Lookup(table: MacroTable, name: string): Option<string>
  {
    if |table| == 0 then None
    else if table[0].name == name then Some(table[0].value)
    else Lookup(table[1..], name)
  }

  /** A dict has at most one entry per key: no later entry repeats the
      name of an earlier one. */
  predicate DistinctNames(table: MacroTable)
  {
    |table| == 0 || (Lookup(table[1..], table[0].name).None? && DistinctNames(table[1..]))
  }

  /** `macros[name] = value`: overwrite in place when the key exists,
      otherwise append (an existing key keeps its position). */
  function SetMacro(table: MacroTable, name: string, value: string): (r: MacroTable)
    ensures Lookup(r, name) == Some(value)
    ensures forall k :: k != name ==> Lookup(r, k) == Lookup(table, k)
    ensures DistinctNames(table) ==> DistinctNames(r)
    decreases |table|
  {
    if |table| == 0 then [Macro(name, value)]
    else if table[0].name == name then
      assert ([Macro(name, value)] + table[1..])[1..] == table[1..];
      [Macro(name, value)] + table[1..]
    else
      var rest := SetMacro(table[1..], name, value);
      assert ([table[0]] + rest)[1..] == rest;
      [table[0]] + rest
  }

  /** The binding an entry `NAME=VALUE` makes, if it has exactly one `=`. */
  function EntryBinding(entry: string): Option<Macro>
  {
    var parts := Split(entry, '=');
    if |parts| == 2 then Some(Macro(parts[0], parts[1])) else None
  }

  /** Reference meaning of a list of entries for one key: the value of the
      LAST entry that binds it. */
  function LastBinding(entries: seq<string>, name: string): Option<string>
  {
    if |entries| == 0 then None
    else match LastBinding(entries[1..], name)
      case Some(v) => Some(v)
      case None =>
        match EntryBinding(entries[0])
        case Some(m) => if m.name == name then Some(m.value) else None
        case None => None
  }

  /** A later binding, when there is one, hides an earlier one. */
  function Override(later: Option<string>, earlier: Option<string>): Option<string>
  {
    if later.Some? then later else earlier
  }

  /** An entry `NAME=VALUE` unpacks into two parts exactly when it holds
      one `=`. */
  predicate OneEquals(entry: string)
  {
    multiset(entry)['='] == 1
  }

  /** The loop of `parse_macro_string` over the comma-separated entries:
      `var, value = entry.split('=')` raises unless there are exactly two
      parts. */
  function ParseEntries(entries: seq<string>, table: MacroTable): (r: Result<MacroTable>)
    ensures r.Success? <==> forall k :: 0 <= k < |entries| ==> OneEquals(entries[k])
    ensures r.Failure? ==> exists k :: 0 <= k < |entries| && r.error == BadMacroEntry(entries[k]) && !OneEquals(entries[k])
    ensures r.Success? && DistinctNames(table) ==> DistinctNames(r.value)
    decreases |entries|
  {
    if |entries| == 0 then Success(table)
    else
      var parts := Split(entries[0], '=');
      if |parts| != 2 then Failure(BadMacroEntry(entries[0]))
      else
        var r := ParseEntries(entries[1..], SetMacro(table, parts[0], parts[1]));
        assert forall k :: 1 <= k < |entries| ==> entries[k] == entries[1..][k - 1];
        r
  }

  /** After a successful parse every key is bound to the value of its
      last entry, and keys no entry binds keep their earlier value. */
  lemma {:induction false} ParseEntriesLookup(entries: seq<string>, table: MacroTable, name: string)
    requires ParseEntries(entries, table).Success?
    ensures Lookup(ParseEntries(entries, table).value, name) == Override(LastBinding(entries, name), Lookup(table, name))
    decreases |entries|
  {
    if |entries| > 0 {
      var parts := Split(entries[0], '=');
      ParseEntriesLookup(entries[1..], SetMacro(table, parts[0], parts[1]), name);
    }
  }

  /** `parse_macro_string`: split on `,`, then each entry on `=`; every
      entry needs exactly one `=`, and a later entry for a key wins. */
  function ParseMacroString(m: string): (r: Result<MacroTable>)
    ensures r.Success? <==> forall e :: e in Split(m, ',') ==> OneEquals(e)
    ensures r.Failure? ==> exists e :: e in Split(m, ',') && r.error == BadMacroEntry(e) && !OneEquals(e)
    ensures r.Success? ==> DistinctNames(r.value)
    ensures r.Success? ==> forall name :: Lookup(r.value, name) == LastBinding(Split(m, ','), name)
  {
    var r := ParseEntries(Split(m, ','), []);
    if r.Success? then
      ParseAllLookups(Split(m, ','));
      r
    else r
  }

  lemma ParseAllLookups(entries: seq<string>)
    requires ParseEntries(entries, []).Success?
    ensures forall name :: Lookup(ParseEntries(entries, []).value, name) == LastBinding(entries, name)
  {
    forall name
      ensures Lookup(ParseEntries(entries, []).value, name) == LastBinding(entries, name)
    {
      ParseEntriesLookup(entries, [], name);
    }
  }

  /** The empty macro string has one entry, `""`, without an `=`. */
  lemma EmptyMacroStringFails()
    ensures ParseMacroString("") == Failure(BadMacroEntry(""))
  {
    assert Split("", ',') == [""];
  }
}

=== FILE: preprocess.dfy ===
/** The PV preprocessor of `main`: trim each line, apply the optional
    `--substitute` rewrite, turn macro values back into tokens, then drop
    every PV an `--ignore` pattern matches. */
module Preprocess {
  import opened Seqs
  import opened Strings
  import opened Macros

  /** `re.search(pattern, pv) is not None`; the regex engine is not modelled. */
  type Matcher = (string, Pv) -> bool

  /** Some ignore pattern matches `pv`. */
  predicate MatchesAny(patterns: seq<string>, pv: Pv, matches: Matcher)
  {
    exists p :: p in patterns && matches(p, pv)
  }

  /** Reference meaning of ignore filtering: keep the PVs no pattern matches. */
  function Survivors(pvs: seq<Pv>, patterns: seq<string>, matches: Matcher): seq<Pv>
  {
    if |pvs| == 0 then []
    else (if MatchesAny(patterns, pvs[0], matches) then [] else [pvs[0]])
         + Survivors(pvs[1..], patterns, matches)
  }

  /** Survivors keep their order. */
  lemma {:induction false} SurvivorsOrder(pvs: seq<Pv>, patterns: seq<string>, matches: Matcher)
    ensures IsSubseq(Survivors(pvs, patterns, matches), pvs)
    decreases |pvs|
  {
    if |pvs| == 0 {
      SubseqRefl(pvs);
    } else {
      var rest := Survivors(pvs[1..], patterns, matches);
      SurvivorsOrder(pvs[1..], patterns, matches);
      assert pvs == [pvs[0]] + pvs[1..];
      if MatchesAny(patterns, pvs[0], matches) {
        assert Survivors(pvs, patterns, matches) == rest;
        SubseqSkip(pvs[0], rest, pvs[1..]);
      } else {
        assert Survivors(pvs, patterns, matches) == [pvs[0]] + rest;
        SubseqCons(pvs[0], rest, pvs[1..]);
      }
    }
  }

  /** Every copy of an unmatched PV survives, and no copy of a matched one. */
  lemma {:induction false} SurvivorsCount(pvs: seq<Pv>, patterns: seq<string>, matches: Matcher)
    ensures forall x :: multiset(Survivors(pvs, patterns, matches))[x] ==
                       (if MatchesAny(patterns, x, matches) then 0 else multiset(pvs)[x])
    decreases |pvs|
  {
    if |pvs| > 0 {
      SurvivorsCount(pvs[1..], patterns, matches);
      assert pvs == [pvs[0]] + pvs[1..];
      assert multiset(pvs) == multiset{pvs[0]} + multiset(pvs[1..]);
    }
  }

  /** What ignore filtering promises: no survivor matches a pattern, every
      copy of every unmatched PV survives, and survivors keep their order. */
  lemma SurvivorsSpec(pvs: seq<Pv>, patterns: seq<string>, matches: Matcher)
    ensures IsSubseq(Survivors(pvs, patterns, matches), pvs)
    ensures forall x :: x in Survivors(pvs, patterns, matches) ==> !MatchesAny(patterns, x, matches)
    ensures forall x :: multiset(Survivors(pvs, patterns, matches))[x] ==
                       (if MatchesAny(patterns, x, matches) then 0 else multiset(pvs)[x])
  {
    SurvivorsOrder(pvs, patterns, matches);
    SurvivorsCount(pvs, patterns, matches);
    forall x | x in Survivors(pvs, patterns, matches)
      ensures !MatchesAny(patterns, x, matches)
    {
      assert multiset(Survivors(pvs, patterns, matches))[x] > 0;
    }
  }

  lemma {:induction false} SurvivorsAppend(a: seq<Pv>, b: seq<Pv>, patterns: seq<string>, matches: Matcher)
    ensures Survivors(a + b, patterns, matches) == Survivors(a, patterns, matches) + Survivors(b, patterns, matches)
    decreases |a|
  {
    if |a| > 0 {
      assert (a + b)[1..] == a[1..] + b;
      SurvivorsAppend(a[1..], b, patterns, matches);
    } else {
      assert a + b == b;
    }
  }

  lemma {:induction false} SurvivorsKeepsAll(pvs: seq<Pv>, patterns: seq<string>, matches: Matcher)
    requires forall k :: 0 <= k < |pvs| ==> !MatchesAny(patterns, pvs[k], matches)
    ensures Survivors(pvs, patterns, matches) == pvs
    decreases |pvs|
  {
    if |pvs| > 0 {
      SurvivorsKeepsAll(pvs[1..], patterns, matches);
      assert pvs == [pvs[0]] + pvs[1..];
    }
  }

  /** Filtering by one pattern and then by the others is filtering by all. */
  lemma {:induction false} SurvivorsCompose(pvs: seq<Pv>, patterns: seq<string>, matches: Matcher)
    requires |patterns| > 0
    ensures Survivors(Survivors(pvs, patterns[..1], matches), patterns[1..], matches)
         == Survivors(pvs, patterns, matches)
    decreases |pvs|
  {
    if |pvs| > 0 {
      var x := pvs[0];
      assert MatchesAny(patterns, x, matches) <==>
             MatchesAny(patterns[..1], x, matches) || MatchesAny(patterns[1..], x, matches) by {
        assert patterns == patterns[..1] + patterns[1..];
      }
      SurvivorsCompose(pvs[1..], patterns, matches);
      var head := if MatchesAny(patterns[..1], x, matches) then [] else [x];
      var once := Survivors(pvs[1..], patterns[..1], matches);
      assert Survivors(pvs, patterns[..1], matches) == head + once;
      SurvivorsAppend(head, once, patterns[1..], matches);
      if head == [x] {
        assert Survivors(head, patterns[1..], matches)
            == (if MatchesAny(patterns[1..], x, matches) then [] else [x]) + Survivors([], patterns[1..], matches);
      }
    }
  }

  /** The part of the list already walked: nothing in it matches. */
  predicate WalkedClean(pattern: string, rest: seq<Pv>, pvs: seq<Pv>, matches: Matcher)
  {
    && |rest| <= |pvs|
    && pvs[|pvs| - |rest|..] == rest
    && forall k :: 0 <= k < |pvs| - |rest| ==> !matches(pattern, pvs[k])
  }

  /** Removing a matched PV: its first occurrence is the one being visited,
      and the survivors do not change. */
  lemma DropMatchStep(pattern: string, rest: seq<Pv>, pvs: seq<Pv>, matches: Matcher)
    requires WalkedClean(pattern, rest, pvs, matches)
    requires |rest| > 0 && matches(pattern, rest[0])
    ensures rest[0] in pvs
    ensures WalkedClean(pattern, rest[1..], RemoveFirst(pvs, rest[0]), matches)
    ensures Survivors(RemoveFirst(pvs, rest[0]), [pattern], matches) == Survivors(pvs, [pattern], matches)
  {
    var pv := rest[0];
    var done := pvs[..|pvs| - |rest|];
    assert rest == [pv] + rest[1..];
    assert pvs == done + [pv] + rest[1..];
    assert pv !in done;
    RemoveFirstAt(done, pv, rest[1..]);
    var next := RemoveFirst(pvs, pv);
    assert next == done + rest[1..];
    SurvivorsAppend(done + [pv], rest[1..], [pattern], matches);
    SurvivorsAppend(done, [pv], [pattern], matches);
    SurvivorsAppend(done, rest[1..], [pattern], matches);
    assert Survivors([pv], [pattern], matches) == [] by {
      assert MatchesAny([pattern], pv, matches);
    }
  }

  /** The inner loop of the ignore filter for one pattern, as written: walk
      a snapshot and `remove` (first occurrence) each PV the pattern
      matches. `rest` is the unvisited part of the snapshot; it is always
      the tail of the list, and everything before it survived. */
  function DropMatches(pattern: string, rest: seq<Pv>, pvs: seq<Pv>, matches: Matcher): (r: seq<Pv>)
    requires WalkedClean(pattern, rest, pvs, matches)
    ensures r == Survivors(pvs, [pattern], matches)
    decreases |rest|
  {
    if |rest| == 0 then
      assert forall k :: 0 <= k < |pvs| ==> !MatchesAny([pattern], pvs[k], matches);
      SurvivorsKeepsAll(pvs, [pattern], matches);
      pvs
    else if matches(pattern, rest[0]) then
      DropMatchStep(pattern, rest, pvs, matches);
      DropMatches(pattern, rest[1..], RemoveFirst(pvs, rest[0]), matches)
    else
      assert pvs[|pvs| - |rest|] == rest[0];
      DropMatches(pattern, rest[1..], pvs, matches)
  }

  /** One `for pattern in ignore` iteration: exactly the PVs the pattern
      does not match remain. */
  function IgnorePattern(pvs: seq<Pv>, pattern: string, matches: Matcher): (r: seq<Pv>)
    ensures r == Survivors(pvs, [pattern], matches)
  {
    DropMatches(pattern, pvs, pvs, matches)
  }

  /** The whole ignore loop, one pattern after another. */
  function Ignore(pvs: seq<Pv>, patterns: seq<string>, matches: Matcher): (r: seq<Pv>)
    ensures r == Survivors(pvs, patterns, matches)
    decreases |patterns|
  {
    if |patterns| == 0 then
      SurvivorsKeepsAll(pvs, patterns, matches);
      pvs
    else
      SurvivorsCompose(pvs, patterns, matches);
      assert patterns[..1] == [patterns[0]];
      Ignore(IgnorePattern(pvs, patterns[0], matches), patterns[1..], matches)
  }

  /** Each line trimmed, substituted and tokenised, before filtering. */
  function Rewritten(lines: seq<string>, subst: Pv -> Pv, macros: MacroTable): seq<Pv>
  {
    seq(|lines|, k requires 0 <= k < |lines| => SubMacros(subst(Strip(lines[k])), macros))
  }

  /** The preprocessing stage of `main`. `subst` is the `--substitute`
      regex rewrite (the identity when none is given). */
  function PrepareList(lines: seq<string>, subst: Pv -> Pv, macros: MacroTable,
                      ignore: seq<string>, matches: Matcher): (r: seq<Pv>)
    ensures forall x :: x in r ==> !MatchesAny(ignore, x, matches)
    ensures forall x :: !MatchesAny(ignore, x, matches) ==>
      multiset(r)[x] == multiset(Rewritten(lines, subst, macros))[x]
    ensures IsSubseq(r, Rewritten(lines, subst, macros))
  {
    SurvivorsSpec(Rewritten(lines, subst, macros), ignore, matches);
    Ignore(Rewritten(lines, subst, macros), ignore, matches)
  }
}

=== FILE: results.dfy ===
/** Failure-compatible wrappers and the error conditions of the generator.

    Every exception the generator can raise while classifying and laying out
    PVs is one constructor of `Error`; a Python `None` return is `Option.None`. */
module Results {

  /** The conventional Some/None datatype; `None` stands for Python's `None`. */
  datatype Option<+T> = None | Some(value: T)

  /** A value, or the error that aborted the whole run. */
  datatype Result<+T> = Success(value: T) | Failure(error: Error) {

    predicate IsFailure() {
      Failure?
    }

    function PropagateFailure<U>(): Result<U>
      requires Failure?
    {
      Failure(error)
    }

    function Extract(): T
      requires Success?
    {
      value
    }
  }

  /** The exceptions of the core, each named after the condition that raises it. */
  datatype Error =
    | MacrosRequired                  // record types must be queried but no macros were given
    | InvalidPairing                  // two readbacks or two setpoints in one group
    | NoPv                            // neither a readback nor a setpoint PV
    | NotInList(pv: string)           // `list.remove` of a PV that is no longer in the list
    | EmptyPvList                     // `pvs[0]` on an empty list while choosing the sort key
    | MissingPlaceholder(template: string)  // a `%(key)s` in the template with no such field
    | BadMacroEntry(entry: string)    // a macro entry without exactly one `=`
}

=== FILE: seqs.dfy ===
/** Sequence helpers shared by the pipeline stages: the subsequence order
    ("keeps the original relative order") and Python's `list.remove`. */
module Seqs {

  /** `m` lists strictly increasing positions of `t` that hold the
      elements of `s`, in order. */
  ghost predicate Embeds<T>(m: seq<nat>, s: seq<T>, t: seq<T>)
  {
    && |m| == |s|
    && (forall i :: 0 <= i < |m| ==> m[i] < |t| && s[i] == t[m[i]])
    && (forall i, j :: 0 <= i < j < |m| ==> m[i] < m[j])
  }

  /** `s` is obtained from `t` by deleting elements: what is kept stays in
      the order it had in `t`. */
  ghost predicate IsSubseq<T>(s: seq<T>, t: seq<T>)
  {
    exists m :: Embeds(m, s, t)
  }

  lemma SubseqRefl<T>(s: seq<T>)
    ensures IsSubseq(s, s)
  {
    var m: seq<nat> := seq(|s|, i requires 0 <= i < |s| => i);
    assert Embeds(m, s, s);
  }

  /** Prepending an element to the larger sequence keeps the relation. */
  lemma SubseqSkip<T>(x: T, s: seq<T>, t: seq<T>)
    requires IsSubseq(s, t)
    ensures IsSubseq(s, [x] + t)
  {
    var m :| Embeds(m, s, t);
    var m': seq<nat> := seq(|m|, i requires 0 <= i < |m| => m[i] + 1);
    assert Embeds(m', s, [x] + t);
  }

  /** Prepending the same element to both sides keeps the relation. */
  lemma SubseqCons<T>(x: T, s: seq<T>, t: seq<T>)
    requires IsSubseq(s, t)
    ensures IsSubseq([x] + s, [x] + t)
  {
    var m :| Embeds(m, s, t);
    var m': seq<nat> := [0] + seq(|m|, i requires 0 <= i < |m| => m[i] + 1);
    assert Embeds(m', [x] + s, [x] + t);
  }

  lemma SubseqTrans<T>(a: seq<T>, b: seq<T>, c: seq<T>)
    requires IsSubseq(a, b) && IsSubseq(b, c)
    ensures IsSubseq(a, c)
  {
    var m1 :| Embeds(m1, a, b);
    var m2 :| Embeds(m2, b, c);
    var m: seq<nat> := seq(|m1|, i requires 0 <= i < |m1| => m2[m1[i]]);
    assert Embeds(m, a, c);
  }

  /** Every element of a subsequence is an element of the whole. */
  lemma SubseqMembers<T>(s: seq<T>, t: seq<T>)
    requires IsSubseq(s, t)
    ensures forall x :: x in s ==> x in t
  {
    var m :| Embeds(m, s, t);
    forall x | x in s
      ensures x in t
    {
      var i :| 0 <= i < |s| && s[i] == x;
      assert t[m[i]] == x;
    }
  }

  /** A subsequence is no longer than the whole. */
  lemma SubseqLength<T>(s: seq<T>, t: seq<T>)
    requires IsSubseq(s, t)
    ensures |s| <= |t|
  {
    var m :| Embeds(m, s, t);
    if |s| > 0 {
      EmbedBound(m, |m| - 1);
    }
  }

  /** Strictly increasing positions from 0 reach at least their count. */
  lemma {:induction false} EmbedBound(m: seq<nat>, i: nat)
    requires i < |m|
    requires forall j, k :: 0 <= j < k < |m| ==> m[j] < m[k]
    ensures m[i] >= i
    decreases i
  {
    if i > 0 {
      EmbedBound(m, i - 1);
    }
  }

  /** Removing one element from anywhere leaves a subsequence. */
  lemma SubseqDeleteAt<T>(s: seq<T>, i: nat)
    requires i < |s|
    ensures IsSubseq(s[..i] + s[i + 1..], s)
  {
    var d := s[..i] + s[i + 1..];
    var m: seq<nat> := seq(|s| - 1, k requires 0 <= k < |s| - 1 => if k < i then k else k + 1);
    assert Embeds(m, d, s);
  }

  /** Python's `list.remove(x)`: delete the first occurrence of `x`.
      Python raises when `x` is absent; every caller here either proves
      `x in s` or models that exception explicitly. */
  function RemoveFirst<T(==)>(s: seq<T>, x: T): (r: seq<T>)
    requires x in s
    ensures multiset(r) == multiset(s) - multiset{x}
    ensures |r| == |s| - 1
  {
    assert s == [s[0]] + s[1..];
    if s[0] == x then s[1..] else [s[0]] + RemoveFirst(s[1..], x)
  }

  /** What `list.remove` leaves keeps the original relative order. */
  lemma {:induction false} RemoveFirstSubseq<T>(s: seq<T>, x: T)
    requires x in s
    ensures IsSubseq(RemoveFirst(s, x), s)
    decreases |s|
  {
    assert s == [s[0]] + s[1..];
    if s[0] == x {
      SubseqRefl(s[1..]);
      SubseqSkip(s[0], s[1..], s[1..]);
    } else {
      RemoveFirstSubseq(s[1..], x);
      SubseqCons(s[0], RemoveFirst(s[1..], x), s[1..]);
    }
  }

  /** An element other than `x` in front is kept. */
  lemma RemoveFirstCons<T>(y: T, t: seq<T>, x: T)
    requires y != x && x in t
    ensures RemoveFirst([y] + t, x) == [y] + RemoveFirst(t, x)
  {
    assert ([y] + t)[1..] == t;
  }

  /** The first occurrence is the one `RemoveFirst` deletes. */
  lemma {:induction false} RemoveFirstAt<T>(p: seq<T>, x: T, q: seq<T>)
    requires x !in p
    ensures RemoveFirst(p + [x] + q, x) == p + q
    decreases |p|
  {
    if |p| == 0 {
      assert p + [x] + q == [x] + q;
      assert ([x] + q)[1..] == q;
    } else {
      var t := p[1..] + [x] + q;
      assert t[|p| - 1] == x;
      calc {
        RemoveFirst(p + [x] + q, x);
        { SeqHeadTail(p, [x] + q); assert p + [x] + q == [p[0]] + t; }
        RemoveFirst([p[0]] + t, x);
        { RemoveFirstCons(p[0], t, x); }
        [p[0]] + RemoveFirst(t, x);
        { RemoveFirstAt(p[1..], x, q); }
        [p[0]] + (p[1..] + q);
        { SeqHeadTail(p, q); }
        p + q;
      }
    }
  }

  /** Re-associating the head of a non-empty prefix. */
  lemma SeqHeadTail<T>(p: seq<T>, q: seq<T>)
    requires |p| > 0
    ensures [p[0]] + (p[1..] + q) == p + q
  {
    assert p == [p[0]] + p[1..];
  }

  /** Taking two elements out one after the other and putting both back
      restores the multiset. */
  lemma RemoveBalance<T>(m0: multiset<T>, m1: multiset<T>, m2: multiset<T>, x: T, y: T)
    requires x in m0 && m1 == m0 - multiset{x}
    requires y in m1 && m2 == m1 - multiset{y}
    ensures m2 + multiset{x, y} == m0
  {
    calc {
      m2 + multiset{x, y};
      { PairMultiset(x, y); }
      m2 + (multiset{y} + multiset{x});
      (m2 + multiset{y}) + multiset{x};
      { AddBack(m1, y); }
      m1 + multiset{x};
      { AddBack(m0, x); }
      m0;
    }
  }

  lemma PairMultiset<T>(x: T, y: T)
    ensures multiset{x, y} == multiset{y} + multiset{x}
  {
  }

  lemma AddBack<T>(m: multiset<T>, x: T)
    requires x in m
    ensures (m - multiset{x}) + multiset{x} == m
  {
  }
}

=== FILE: sorting.dfy ===
/** The ordering step of `make_display`: choosing the dict key to sort the
    classified groups by, and Python's stable `list.sort` on that key. */
module Sorting {
  import opened Results
  import opened Seqs
  import opened Strings
  import opened Classify

  /** The keys of a `get_pv_info` record. */
  datatype SortField = ReadbackPv | SetpointPv | Desc | DescPv | TemplateField

  function FieldName(f: SortField): string
  {
    match f
    case ReadbackPv => "readback_pv"
    case SetpointPv => "setpoint_pv"
    case Desc => "desc"
    case DescPv => "desc_pv"
    case TemplateField => "template"
  }

  /** `item[key]`. */
  function Field(p: PvInfo, f: SortField): string
  {
    match f
    case ReadbackPv => p.readbackPv
    case SetpointPv => p.setpointPv
    case Desc => p.desc
    case DescPv => p.descPv
    case TemplateField => p.template
  }

  /** `key in record`: the key a name denotes, if it is one of the five. */
  function KeyNamed(name: string): (r: Option<SortField>)
    ensures r.Some? ==> FieldName(r.value) == name
    ensures r.None? ==> forall f: SortField :: FieldName(f) != name
  {
    if name == "readback_pv" then Some(ReadbackPv)
    else if name == "setpoint_pv" then Some(SetpointPv)
    else if name == "desc" then Some(Desc)
    else if name == "desc_pv" then Some(DescPv)
    else if name == "template" then Some(TemplateField)
    else None
  }

  /** The sort key of `make_display`: `pv` sorts by the description PV,
      `type` by template, and any other name sorts by that key when the
      first record has it. Testing the first record fails on an empty list
      (`pvs[0]`), so only `pv` and `type` survive an empty display. */
  function SortKeyFor(sort: string, rows: seq<PvInfo>): (r: Result<Option<SortField>>)
    ensures r.Failure? <==> |rows| == 0 && sort != "pv" && sort != "type"
    ensures r.Failure? ==> r.error == EmptyPvList
    ensures sort == "pv" ==> r == Success(Some(DescPv))
    ensures sort == "type" ==> r == Success(Some(TemplateField))
    ensures r.Success? && sort != "pv" && sort != "type" ==>
              (r.value.Some? <==> exists f: SortField :: FieldName(f) == sort) &&
              (r.value.Some? ==> FieldName(r.value.value) == sort)
  {
    if sort == "pv" then Success(Some(DescPv))
    else if sort == "type" then Success(Some(TemplateField))
    else if |rows| == 0 then Failure(EmptyPvList)
    else Success(KeyNamed(sort))
  }

  /** Ascending by key under Python's string order. */
  predicate SortedBy(s: seq<PvInfo>, f: SortField)
  {
    forall i, j :: 0 <= i < j < |s| ==> LexLe(Field(s[i], f), Field(s[j], f))
  }

  /** The records of `s` whose key is `v`, in order. */
  function KeyFilter(s: seq<PvInfo>, f: SortField, v: string): seq<PvInfo>
  {
    if |s| == 0 then []
    else (if Field(s[0], f) == v then [s[0]] else []) + KeyFilter(s[1..], f, v)
  }

  /** Insert `p` after every record whose key is not greater than its own. */
  function Insert(p: PvInfo, s: seq<PvInfo>, f: SortField): (r: seq<PvInfo>)
    ensures |r| == |s| + 1
    ensures multiset(r) == multiset(s) + multiset{p}
  {
    if |s| == 0 then [p]
    else if !LexLe(Field(s[0], f), Field(p, f)) then [p] + s
    else
      assert s == [s[0]] + s[1..];
      [s[0]] + Insert(p, s[1..], f)
  }

  /** `rows.sort(key=lambda item: item[key])`, as an insertion sort that
      inserts each record after the equal-keyed ones already placed. */
  function SortBy(rows: seq<PvInfo>, f: SortField): (r: seq<PvInfo>)
    ensures |r| == |rows|
    ensures multiset(r) == multiset(rows)
  {
    if |rows| == 0 then []
    else
      assert rows == rows[..|rows| - 1] + [rows[|rows| - 1]];
      Insert(rows[|rows| - 1], SortBy(rows[..|rows| - 1], f), f)
  }

  /** Every key of `s` is at least `key`. */
  predicate AllAtLeast(key: string, s: seq<PvInfo>, f: SortField)
  {
    forall k :: 0 <= k < |s| ==> LexLe(key, Field(s[k], f))
  }

  lemma SortedTail(s: seq<PvInfo>, f: SortField)
    requires |s| > 0 && SortedBy(s, f)
    ensures SortedBy(s[1..], f) && AllAtLeast(Field(s[0], f), s[1..], f)
  {
    assert forall k :: 0 <= k < |s[1..]| ==> s[1..][k] == s[k + 1];
  }

  lemma SortedCons(p: PvInfo, s: seq<PvInfo>, f: SortField)
    requires SortedBy(s, f) && AllAtLeast(Field(p, f), s, f)
    ensures SortedBy([p] + s, f)
  {
    var r := [p] + s;
    assert forall k :: 1 <= k < |r| ==> r[k] == s[k - 1];
  }

  /** A key that precedes the smallest key of a sorted list precedes all. */
  lemma AtLeastFromHead(key: string, s: seq<PvInfo>, f: SortField)
    requires |s| > 0 && SortedBy(s, f) && LexLe(key, Field(s[0], f))
    ensures AllAtLeast(key, s, f)
  {
    forall k | 0 <= k < |s|
      ensures LexLe(key, Field(s[k], f))
    {
      if k > 0 {
        LexLeTrans(key, Field(s[0], f), Field(s[k], f));
      }
    }
  }

  lemma AtLeastInsert(key: string, p: PvInfo, s: seq<PvInfo>, f: SortField)
    requires AllAtLeast(key, s, f) && LexLe(key, Field(p, f))
    ensures AllAtLeast(key, Insert(p, s, f), f)
  {
    var r := Insert(p, s, f);
    forall k | 0 <= k < |r|
      ensures LexLe(key, Field(r[k], f))
    {
      assert r[k] in multiset(s) + multiset{p};
      if r[k] != p {
        assert r[k] in s;
      }
    }
  }

  lemma {:induction false} InsertSorted(p: PvInfo, s: seq<PvInfo>, f: SortField)
    requires SortedBy(s, f)
    ensures SortedBy(Insert(p, s, f), f)
    decreases |s|
  {
    if |s| == 0 {
    } else if !LexLe(Field(s[0], f), Field(p, f)) {
      LexLeTotal(Field(s[0], f), Field(p, f));
      AtLeastFromHead(Field(p, f), s, f);
      SortedCons(p, s, f);
    } else {
      SortedTail(s, f);
      InsertSorted(p, s[1..], f);
      AtLeastInsert(Field(s[0], f), p, s[1..], f);
      SortedCons(s[0], Insert(p, s[1..], f), f);
    }
  }

  /** The result of the sort is ascending by key. */
  lemma {:induction false} SortBySorted(rows: seq<PvInfo>, f: SortField)
    ensures SortedBy(SortBy(rows, f), f)
    decreases |rows|
  {
    if |rows| > 0 {
      SortBySorted(rows[..|rows| - 1], f);
      InsertSorted(rows[|rows| - 1], SortBy(rows[..|rows| - 1], f), f);
    }
  }

  lemma {:induction false} KeyFilterAppend(a: seq<PvInfo>, b: seq<PvInfo>, f: SortField, v: string)
    ensures KeyFilter(a + b, f, v) == KeyFilter(a, f, v) + KeyFilter(b, f, v)
    decreases |a|
  {
    if |a| == 0 {
      assert a + b == b;
    } else {
      var h := if Field(a[0], f) == v then [a[0]] else [];
      calc {
        KeyFilter(a + b, f, v);
        { SeqHeadTail(a, b); }
        KeyFilter([a[0]] + (a[1..] + b), f, v);
        { KeepHeadFilter(a[0], a[1..] + b, KeyFilter(a[1..] + b, f, v), f, v); }
        h + KeyFilter(a[1..] + b, f, v);
        { KeyFilterAppend(a[1..], b, f, v); }
        h + (KeyFilter(a[1..], f, v) + KeyFilter(b, f, v));
        (h + KeyFilter(a[1..], f, v)) + KeyFilter(b, f, v);
        KeyFilter(a, f, v) + KeyFilter(b, f, v);
      }
    }
  }

  lemma {:induction false} KeyFilterNone(s: seq<PvInfo>, f: SortField, v: string)
    requires forall k :: 0 <= k < |s| ==> Field(s[k], f) != v
    ensures KeyFilter(s, f, v) == []
    decreases |s|
  {
    if |s| > 0 {
      KeyFilterNone(s[1..], f, v);
    }
  }

  /** A record inserted in front of strictly greater keys is the only one
      with its key. */
  lemma InsertFrontFilter(p: PvInfo, s: seq<PvInfo>, f: SortField, v: string)
    requires |s| > 0 && SortedBy(s, f) && !LexLe(Field(s[0], f), Field(p, f))
    ensures KeyFilter([p] + s, f, v) == KeyFilter(s, f, v) + (if Field(p, f) == v then [p] else [])
  {
    forall k | 0 <= k < |s|
      ensures Field(s[k], f) != Field(p, f)
    {
      LexLeRefl(Field(s[0], f));
      assert LexLe(Field(s[0], f), Field(s[k], f));
    }
    KeyFilterNone(s, f, Field(p, f));
    assert ([p] + s)[1..] == s;
  }

  /** Keeping the head in front of an insertion keeps its filter entry in
      front. */
  lemma KeepHeadFilter(h: PvInfo, t: seq<PvInfo>, tail: seq<PvInfo>, f: SortField, v: string)
    requires KeyFilter(t, f, v) == tail
    ensures KeyFilter([h] + t, f, v) == (if Field(h, f) == v then [h] else []) + tail
  {
    assert ([h] + t)[1..] == t;
  }

  /** Inserting into a sorted list puts the new record after every record
      with the same key. */
  lemma {:induction false} InsertFilter(p: PvInfo, s: seq<PvInfo>, f: SortField, v: string)
    requires SortedBy(s, f)
    ensures KeyFilter(Insert(p, s, f), f, v) == KeyFilter(s, f, v) + (if Field(p, f) == v then [p] else [])
    decreases |s|
  {
    if |s| == 0 {
    } else if !LexLe(Field(s[0], f), Field(p, f)) {
      InsertFrontFilter(p, s, f, v);
    } else {
      var h := if Field(s[0], f) == v then [s[0]] else [];
      var tail := if Field(p, f) == v then [p] else [];
      var t := Insert(p, s[1..], f);
      calc {
        KeyFilter(Insert(p, s, f), f, v);
        KeyFilter([s[0]] + t, f, v);
        { KeepHeadFilter(s[0], t, KeyFilter(t, f, v), f, v); }
        h + KeyFilter(t, f, v);
        { SortedTail(s, f); InsertFilter(p, s[1..], f, v); }
        h + (KeyFilter(s[1..], f, v) + tail);
        (h + KeyFilter(s[1..], f, v)) + tail;
        KeyFilter(s, f, v) + tail;
      }
    }
  }

  lemma KeyFilterSingle(p: PvInfo, f: SortField, v: string)
    ensures KeyFilter([p], f, v) == if Field(p, f) == v then [p] else []
  {
    assert [p][1..] == [];
  }

  /** The sort is stable: for every key value, the records having it keep
      their relative order. */
  lemma {:induction false} SortByStable(rows: seq<PvInfo>, f: SortField, v: string)
    ensures KeyFilter(SortBy(rows, f), f, v) == KeyFilter(rows, f, v)
    decreases |rows|
  {
    if |rows| > 0 {
      var init, last := rows[..|rows| - 1], rows[|rows| - 1];
      var tail := if Field(last, f) == v then [last] else [];
      calc {
        KeyFilter(SortBy(rows, f), f, v);
        KeyFilter(Insert(last, SortBy(init, f), f), f, v);
        { SortBySorted(init, f); InsertFilter(last, SortBy(init, f), f, v); }
        KeyFilter(SortBy(init, f), f, v) + tail;
        { SortByStable(init, f, v); }
        KeyFilter(init, f, v) + tail;
        { KeyFilterSingle(last, f, v); KeyFilterAppend(init, [last], f, v); }
        KeyFilter(init + [last], f, v);
        { assert rows == init + [last]; }
        KeyFilter(rows, f, v);
      }
    }
  }

  /** What the sort of `make_display` promises: a permutation of the rows,
      ascending by key, with equal keys in their original order. */
  lemma SortBySpec(rows: seq<PvInfo>, f: SortField)
    ensures multiset(SortBy(rows, f)) == multiset(rows)
    ensures SortedBy(SortBy(rows, f), f)
    ensures forall v :: KeyFilter(SortBy(rows, f), f, v) == KeyFilter(rows, f, v)
  {
    SortBySorted(rows, f);
    forall v
      ensures KeyFilter(SortBy(rows, f), f, v) == KeyFilter(rows, f, v)
    {
      SortByStable(rows, f, v);
    }
  }
}

=== FILE: strings.dfy ===
/** The Python string operations the generator relies on, written out:
    `str.strip()`, `str.replace`, `str.split` on one separator character,
    and the code-point ordering `sorted` uses for string keys. */
module Strings {

  /** The characters Python 2's `str.strip()` removes (`string.whitespace`). */
  predicate IsSpace(c: char)
  {
    c == ' ' || c == '\t' || c == '\n' || c == '\r' || c == '\U{0B}' || c == '\U{0C}'
  }

  /** Length of the whitespace run at the start of `s`. */
  function LeadingSpaces(s: string): (n: nat)
    ensures n <= |s|
    ensures forall k :: 0 <= k < n ==> IsSpace(s[k])
    ensures n == |s| || !IsSpace(s[n])
  {
    if |s| > 0 && IsSpace(s[0]) then 1 + LeadingSpaces(s[1..]) else 0
  }

  /** Length of the whitespace run at the end of `s`. */
  function TrailingSpaces(s: string): (n: nat)
    ensures n <= |s|
    ensures forall k :: |s| - n <= k < |s| ==> IsSpace(s[k])
    ensures n == |s| || !IsSpace(s[|s| - n - 1])
  {
    if |s| > 0 && IsSpace(s[|s| - 1]) then 1 + TrailingSpaces(s[..|s| - 1]) else 0
  }

  /** `str.strip()`: the slice of `s` between its leading and trailing
      whitespace; interior characters are untouched. */
  function Strip(s: string): (r: string)
    ensures LeadingSpaces(s) + |r| <= |s|
    ensures r == s[LeadingSpaces(s)..LeadingSpaces(s) + |r|]
    ensures forall k :: LeadingSpaces(s) + |r| <= k < |s| ==> IsSpace(s[k])
    ensures |r| == 0 || (!IsSpace(r[0]) && !IsSpace(r[|r| - 1]))
  {
    var t := s[LeadingSpaces(s)..];
    t[..|t| - TrailingSpaces(t)]
  }

  /** `t` occurs somewhere in `s`: at its start, or further on. */
  predicate Occurs(t: string, s: string)
    decreases |s|
  {
    |t| <= |s| && (s[..|t|] == t || (|s| > 0 && Occurs(t, s[1..])))
  }

  /** `t` occurs at the start of `t + x`. */
  lemma OccursPrefix(t: string, x: string)
    ensures Occurs(t, t + x)
  {
    assert (t + x)[..|t|] == t;
  }

  /** An occurrence survives a character put in front. */
  lemma OccursCons(t: string, c: char, s: string)
    requires Occurs(t, s)
    ensures Occurs(t, [c] + s)
  {
    assert ([c] + s)[1..] == s;
  }

  /** A string holding a character the text lacks does not occur in it. */
  lemma {:induction false} MissingChar(t: string, s: string, c: char)
    requires c in t && c !in s
    ensures !Occurs(t, s)
    decreases |s|
  {
    if |t| <= |s| {
      if |s| > 0 {
        assert forall i :: 0 <= i < |s[1..]| ==> s[1..][i] == s[i + 1];
        MissingChar(t, s[1..], c);
      }
    }
  }

  /** `str.replace(target, repl)`. Occurrences of a non-empty `target` are found
      left to right without overlap; an empty `target` matches at every
      position, so `repl` is inserted before each character and at the end. */
  function Replace(s: string, target: string, repl: string): (r: string)
    ensures |target| > 0 && !Occurs(target, s) ==> r == s
    ensures |target| > 0 && repl == target ==> r == s
    ensures |target| == 0 ==> |r| == |s| + (|s| + 1) * |repl|
    ensures |target| > 0 && Occurs(target, s) ==> Occurs(repl, r)
  {
    if |target| == 0 then InsertEverywhere(s, repl) else ReplaceNonEmpty(s, target, repl)
  }

  /** The empty target matches before every character and at the end. */
  function InsertEverywhere(s: string, repl: string): (r: string)
    ensures |r| == |s| + (|s| + 1) * |repl|
  {
    if |s| == 0 then repl else repl + [s[0]] + InsertEverywhere(s[1..], repl)
  }

  /** Appending a character to the text appends it and one more `repl`:
      with `InsertEverywhere("", repl) == repl` this fixes the result as
      `repl`, then each character followed by `repl`. */
  lemma {:induction false} InsertEverywhereSnoc(s: string, c: char, repl: string)
    ensures InsertEverywhere(s + [c], repl) == InsertEverywhere(s, repl) + [c] + repl
    decreases |s|
  {
    if |s| == 0 {
      assert InsertEverywhere([c], repl) == repl + [c] + InsertEverywhere([], repl);
    } else {
      assert (s + [c])[0] == s[0] && (s + [c])[1..] == s[1..] + [c];
      InsertEverywhereSnoc(s[1..], c, repl);
    }
  }

  /** A text in which the target does not occur, or a target replaced by
      itself, is left unchanged. */
  function ReplaceNonEmpty(s: string, target: string, repl: string): (r: string)
    requires |target| > 0
    ensures !Occurs(target, s) ==> r == s
    ensures repl == target ==> r == s
    ensures Occurs(target, s) ==> Occurs(repl, r)
    decreases |s|
  {
    if |s| < |target| then s
    else if s[..|target|] == target then
      assert s == s[..|target|] + s[|target|..];
      var rest := ReplaceNonEmpty(s[|target|..], target, repl);
      OccursPrefix(repl, rest);
      repl + rest
    else
      assert s == [s[0]] + s[1..];
      var rest := ReplaceNonEmpty(s[1..], target, repl);
      if Occurs(repl, rest) then
        OccursCons(repl, s[0], rest);
        [s[0]] + rest
      else
        [s[0]] + rest
  }

  /** The scan replaces the first occurrence and resumes after it: when
      `target` starts nowhere inside `p`, the text `p + target + q` becomes
      `p + repl` followed by the replacement of `q`. An occurrence starting
      inside `p` would lie within `p` and the first `|target| - 1`
      characters of `target`. */
  lemma {:induction false} ReplaceFirst(p: string, target: string, repl: string, q: string)
    requires |target| > 0 && !Occurs(target, p + target[..|target| - 1])
    ensures ReplaceNonEmpty(p + target + q, target, repl) == p + repl + ReplaceNonEmpty(q, target, repl)
    decreases |p|
  {
    var n := |target|;
    if |p| == 0 {
      assert p + target + q == target + q;
      ReplaceMatches(target, q, repl);
    } else {
      var w := p + target[..n - 1];
      NotOccursHead(target, w);
      assert w[1..] == p[1..] + target[..n - 1];
      var rest := p[1..] + target + q;
      assert p + target + q == [p[0]] + rest;
      assert ([p[0]] + rest)[..n] == w[..n];
      ReplaceSkips(p[0], rest, target, repl);
      ReplaceFirst(p[1..], target, repl, q);
      HeadThen(p, repl, ReplaceNonEmpty(q, target, repl));
    }
  }

  /** One occurrence, and none after it: only that occurrence changes. */
  lemma ReplaceOnce(p: string, target: string, repl: string, q: string)
    requires |target| > 0 && !Occurs(target, p + target[..|target| - 1]) && !Occurs(target, q)
    ensures ReplaceNonEmpty(p + target + q, target, repl) == p + repl + q
  {
    ReplaceFirst(p, target, repl, q);
  }

  /** A text starting with `target` has it replaced and the scan resumes
      after it. */
  lemma ReplaceMatches(target: string, q: string, repl: string)
    requires |target| > 0
    ensures ReplaceNonEmpty(target + q, target, repl) == repl + ReplaceNonEmpty(q, target, repl)
  {
    assert (target + q)[..|target|] == target && (target + q)[|target|..] == q;
  }

  /** A text that does not start with `target` keeps its first character. */
  lemma ReplaceSkips(c: char, rest: string, target: string, repl: string)
    requires 0 < |target| <= |rest| + 1 && ([c] + rest)[..|target|] != target
    ensures ReplaceNonEmpty([c] + rest, target, repl) == [c] + ReplaceNonEmpty(rest, target, repl)
  {
    assert ([c] + rest)[1..] == rest;
  }

  /** Putting the first character back in front. */
  lemma HeadThen(p: string, x: string, y: string)
    requires |p| > 0
    ensures [p[0]] + (p[1..] + x + y) == p + x + y
  {
    assert p == [p[0]] + p[1..];
  }

  /** Where `t` does not occur it neither starts the text nor occurs in
      its tail. */
  lemma NotOccursHead(t: string, w: string)
    requires !Occurs(t, w) && |t| <= |w|
    ensures w[..|t|] != t && (|w| > 0 ==> !Occurs(t, w[1..]))
  {
  }


  /** `sep.join(parts)`. */
  function Join(parts: seq<string>, sep: char): string
    requires |parts| > 0
  {
    if |parts| == 1 then parts[0] else parts[0] + [sep] + Join(parts[1..], sep)
  }

  /** What `Split` promises about the pieces `parts` of `s`. */
  predicate SplitsInto(s: string, sep: char, parts: seq<string>)
  {
    && |parts| == multiset(s)[sep] + 1
    && (forall k :: 0 <= k < |parts| ==> sep !in parts[k])
    && Join(parts, sep) == s
  }

  /** A separator in front starts a new, empty first piece. */
  lemma SplitSepHead(t: string, sep: char, parts: seq<string>)
    requires SplitsInto(t, sep, parts)
    ensures SplitsInto([sep] + t, sep, [""] + parts)
  {
    var r := [""] + parts;
    assert r[1..] == parts;
    assert multiset([sep] + t) == multiset{sep} + multiset(t);
    assert forall k :: 1 <= k < |r| ==> r[k] == parts[k - 1];
  }

  lemma JoinConsHead(c: char, parts: seq<string>, sep: char)
    requires |parts| > 0
    ensures Join([[c] + parts[0]] + parts[1..], sep) == [c] + Join(parts, sep)
  {
    var r := [[c] + parts[0]] + parts[1..];
    if |parts| > 1 {
      assert r[1..] == parts[1..];
      assert ([c] + parts[0]) + [sep] + Join(parts[1..], sep)
          == [c] + (parts[0] + [sep] + Join(parts[1..], sep));
    }
  }

  /** Any other character in front extends the first piece. */
  lemma SplitCharHead(c: char, t: string, sep: char, parts: seq<string>)
    requires c != sep
    requires SplitsInto(t, sep, parts)
    ensures SplitsInto([c] + t, sep, [[c] + parts[0]] + parts[1..])
  {
    var r := [[c] + parts[0]] + parts[1..];
    assert multiset([c] + t)[sep] == multiset(t)[sep];
    assert forall k :: 1 <= k < |r| ==> r[k] == parts[k];
    assert sep !in r[0];
    JoinConsHead(c, parts, sep);
  }

  /** `s.split(sep)` for a one-character separator: never empty, one more
      piece than there are separators, no piece holds a separator, and
      joining the pieces gives `s` back. */
  function Split(s: string, sep: char): (r: seq<string>)
    ensures |r| == multiset(s)[sep] + 1
    ensures forall k :: 0 <= k < |r| ==> sep !in r[k]
    ensures Join(r, sep) == s
    decreases |s|
  {
    if |s| == 0 then [""]
    else
      var rest := Split(s[1..], sep);
      assert s == [s[0]] + s[1..];
      if s[0] == sep then
        SplitSepHead(s[1..], sep, rest);
        [""] + rest
      else
        SplitCharHead(s[0], s[1..], sep, rest);
        [[s[0]] + rest[0]] + rest[1..]
  }

  /** Python's `<=` on strings: lexicographic by code point, a proper
      prefix ordering first. */
  predicate LexLe(a: string, b: string)
    decreases |a|
  {
    |a| == 0 || (|b| > 0 && (a[0] < b[0] || (a[0] == b[0] && LexLe(a[1..], b[1..]))))
  }

  lemma {:induction false} LexLeRefl(a: string)
    ensures LexLe(a, a)
    decreases |a|
  {
    if |a| > 0 {
      LexLeRefl(a[1..]);
    }
  }

  lemma {:induction false} LexLeTotal(a: string, b: string)
    ensures LexLe(a, b) || LexLe(b, a)
    decreases |a|
  {
    if |a| > 0 && |b| > 0 && a[0] == b[0] {
      LexLeTotal(a[1..], b[1..]);
    }
  }

  lemma {:induction false} LexLeTrans(a: string, b: string, c: string)
    requires LexLe(a, b) && LexLe(b, c)
    ensures LexLe(a, c)
    decreases |a|
  {
    if |a| > 0 && a[0] == b[0] && b[0] == c[0] {
      LexLeTrans(a[1..], b[1..], c[1..]);
    }
  }

  lemma {:induction false} LexLeAntisym(a: string, b: string)
    requires LexLe(a, b) && LexLe(b, a)
    ensures a == b
    decreases |a|
  {
    if |a| > 0 {
      LexLeAntisym(a[1..], b[1..]);
      assert a == [a[0]] + a[1..] && b == [b[0]] + b[1..];
    }
  }
}
